=== FILE: README.md ===
# Attribute parser, modelled in Dafny

This is a model of the HackerRank "Attribute Parser" solution in
`c_c++/attribute-parser/main.cpp`. The program reads lines of an HRML-like
markup, one tag per line:

```
<tag1 value = "HelloWorld">
<tag2 name = "Name1">
</tag2>
</tag1>
```

It builds a tag tree with `build_tag_tree`. It then answers queries such as
`tag1.tag2~name` with `get_attr_val`.

The model has these modules:

| module | file | what it holds |
|---|---|---|
| `Wrappers` | `wrappers.dfy` | `Option` and `Result` |
| `Strings` | `strings.dfy` | `ltrim`, `rtrim`, `trim`, and the `find` and `erase(0, find(c) + 1)` idioms |
| `Tags` | `tags.dfy` | `struct Tag`, `add_attr`, `new_child`, the `find_if` child search, a node count |
| `Tokenizer` | `tokenizer.dfy` | handling of one line once the regular expressions have accepted it |
| `Patterns` | `pattern.dfy` | the set of lines the full-line pattern accepts |
| `Rendering` | `tokenizer.dfy` | the text of well-formed lines, and proofs that the line handling reads it back |
| `Builder` | `builder.dfy` | `build_tag_tree` as a fold over classified lines |
| `Documents` | `documents.dfy` | well-nested documents and the tree they must build |
| `Inversion` | `inversion.dfy` | the converse: whatever builds is a well-nested document |
| `Query` | `query.dfy` | `get_attr_val` as a recursive scan, and the C++ loop itself |
| `AttributeParser` | `parser.dfy` | building and querying together |

Design choices:

- **Tags.** A tag is an immutable `Tag(name, attrs: map<string, string>, children: seq<Tag>)`.
- **Cursor.** The C++ cursor and parent pointers become a stack of open tags.
  - The bottom of the stack is the unnamed synthetic root.
  - The top of the stack is the cursor.
  - A tag is attached to its parent when it is closed. On success this gives the same tree as the C++, which attaches at open time.
- **Errors.** `err_and_exit` becomes a `BuildError` value:
  - `SyntaxError(line)`
  - `ClosingInexistingTag(line, name)`
  - `MissingClosingTag`
- **Regular expressions.** Matching is not modelled. A `Scanned` value is an oracle that says one of two things:
  - the full-line pattern did not match;
  - it matched, and each successive attribute match ended at a given offset.

  `Patterns` states separately which lines the full-line pattern accepts. It is used to show that a written-out document is accepted line by line.

  The post-match string handling at lines 103-138 is modelled character by character:
  - stripping `<>`;
  - the leading `/` test;
  - `trim`;
  - the name cut at the first space;
  - each pair's `=` and `"` handling.

## Model

| member | source | states |
|---|---|---|
| Strings.LTrim | c_c++/attribute-parser/main.cpp:16-19 | on a string with a non-blank character, the result is a non-empty suffix that starts non-blank, and everything it drops is blank |
| Strings.RTrim | c_c++/attribute-parser/main.cpp:21-24 | the result is a prefix whose remainder is all blank, and it is empty or ends non-blank; an all-blank string gives the empty string because `npos + 1` wraps to 0 |
| Strings.Trim | c_c++/attribute-parser/main.cpp:26-29 | on a string with a non-blank character, the result is non-empty and starts and ends with a non-blank character |
| Strings.TrimSplits | c_c++/attribute-parser/main.cpp:16-29 | `trim` removes exactly a blank prefix and a blank suffix: the input is blanks, then the result, then blanks |
| Strings.TrimExact | c_c++/attribute-parser/main.cpp:16-29 | whatever blanks surround a core that starts and ends non-blank, `trim` returns exactly that core |
| Strings.TrimIdempotent | c_c++/attribute-parser/main.cpp:26-29 | `trim` is idempotent |
| Strings.TrimKeeps | c_c++/attribute-parser/main.cpp:135-138 | `trim` keeps only characters of its argument, so a character absent from the input is absent from the result |
| Strings.Find | c_c++/attribute-parser/main.cpp:125-126 | `find(c)` is the first index holding `c`, with the length standing for `npos` when there is none |
| Strings.FindAt | c_c++/attribute-parser/main.cpp:125 | `find(c)` is pinned down by the first occurrence of `c` |
| Strings.AfterFirst | c_c++/attribute-parser/main.cpp:136-137 | `erase(0, find(c) + 1)` leaves exactly what follows the first `c`, and the whole string when there is no `c` |
| Tags.AddAttr | c_c++/attribute-parser/main.cpp:58-61 | after `add_attr(k, v)`, `k` maps to `v`, the key set gains `k`, and every other key keeps its value |
| Tags.AddAttrs | c_c++/attribute-parser/main.cpp:128-142 | writing one line's pairs in order gives the old map overridden by the map those pairs assign |
| Tags.AssignedKeys | c_c++/attribute-parser/main.cpp:140 | the keys the pairs assign are exactly the keys of the pairs |
| Tags.LastWriteWins | c_c++/attribute-parser/main.cpp:60 | a key repeated on one line keeps the value of its last pair |
| Tags.AppendChild | c_c++/attribute-parser/main.cpp:63-68 | `new_child` appends exactly one child at the end and leaves name, attributes and earlier children untouched |
| Tags.AppendChildSize | c_c++/attribute-parser/main.cpp:63-68 | appending a child adds exactly that child's nodes |
| Tags.FirstChildIndex | c_c++/attribute-parser/main.cpp:168-169 | the `find_if` result is the FIRST child with the name, and there is none exactly when no child has that name |
| Tags.FirstChild | c_c++/attribute-parser/main.cpp:190-194 | the child found has the name and sits at an index before which no child has the name, so it is the FIRST such child; there is none exactly when no child has the name |
| Tokenizer.Classify | c_c++/attribute-parser/main.cpp:100-125 | a line is invalid exactly when the pattern rejected it; a closing line is `</name>`; an opening line's name is non-empty, space-free and its first word, with one pair per attribute match |
| Tokenizer.ClosingLine | c_c++/attribute-parser/main.cpp:103-107 | the closing name is the text between `</` and `>` |
| Tokenizer.LeadingName | c_c++/attribute-parser/main.cpp:123-125 | the name of an opening line is non-empty, starts non-blank, has no space, and is followed in the line by a blank or by `>` |
| Tokenizer.NameInText | c_c++/attribute-parser/main.cpp:123-125 | the trimmed inner text's first word sits right after `<`, followed by a blank or by `>` |
| Tokenizer.ExtractPair | c_c++/attribute-parser/main.cpp:132-138 | a pair read from a line has a trimmed key with no `=` and a trimmed value with no `"`; what the key and value are is stated by Rendering.SpacedPairReads |
| Rendering.SpacedPairReads | c_c++/attribute-parser/main.cpp:132-138 | for a pair written as `key = " value "`, with any blanks before it, around its `=` and inside its quotes, the key read is the text before the first `=` without its blanks and the value is the text between the next two quotes without its blanks; this holds whatever text follows, as long as that text is empty or ends in a non-blank character |
| Rendering.SpacedOpenReads | c_c++/attribute-parser/main.cpp:99-142 | take an opening line with a good name and one pair written with blanks around its `=` and inside its quotes, such as `<tag1 value = "HelloWorld">`. It is accepted when only spaces surround the `=` and the key has no space character. Whatever blanks surround the `=`, when its attribute match covers the text after the name, it is read as that name with the trimmed key and value |
| Patterns.SpacedAttrAccepted | c_c++/attribute-parser/main.cpp:99 | ` key = "value"`, with any runs of spaces on either side of the `=`, is one attribute of the pattern when the key has no space character |
| Tokenizer.ReadPairs | c_c++/attribute-parser/main.cpp:130-142 | an opening line yields one pair per attribute match, and every key read is trimmed with no `=`, every value trimmed with no `"`, whatever the line |
| Rendering.RenderedPairs | c_c++/attribute-parser/main.cpp:128-142 | when every attribute match ends where the pattern's trailing `( )*` ends it, the pairs read from a written-out line are exactly the pairs written, in the same order |
| Patterns.AcceptedShape | c_c++/attribute-parser/main.cpp:99-103 | every line the full-line pattern accepts is `<`, a character `trim` keeps, anything, `>`; this is the shape the line handling assumes |
| Patterns.ClosingAccepted | c_c++/attribute-parser/main.cpp:99 | `</name>` is accepted whenever the name has no space character |
| Patterns.AttrAccepted | c_c++/attribute-parser/main.cpp:99 | ` key="value"` is one attribute of the pattern when the key has no space character and the value is non-empty with no quote |
| Patterns.OpeningAccepted | c_c++/attribute-parser/main.cpp:99 | `<name` followed by accepted attributes and `>` is accepted when the name has no space character |
| Patterns.TabInNameRejected | c_c++/attribute-parser/main.cpp:99-101 | a tag name holding a tab, as in `<a\tb>`, is not accepted, so the line is a syntax error |
| Rendering.OpenAccepted | c_c++/attribute-parser/main.cpp:99 | the full-line pattern accepts a written-out opening line with a good name and good pairs |
| Rendering.PairRoundTrip | c_c++/attribute-parser/main.cpp:132-138 | a good pair (`GoodPair`) written as `key="value"` after any blanks is read back unchanged, when the text that follows it is empty or ends in a non-blank character |
| Rendering.OpenRoundTrip | c_c++/attribute-parser/main.cpp:99-142 | a written-out opening line with a good name and good pairs (`GoodName`: non-space characters not starting with `/`; `GoodPair`: a key of non-space characters without `=`, and a trimmed value with no quote or line break that does not end in `=`) is accepted by the full-line pattern and read back as the same name with the same pairs in the same order |
| Rendering.CloseRoundTrip | c_c++/attribute-parser/main.cpp:99-107 | a written-out closing line is read back as a closing line with the same name, and is accepted when the name has no space character |
| Builder.Step | c_c++/attribute-parser/main.cpp:100-121 | an invalid line fails with its number; a closing line succeeds exactly when it names the cursor, and otherwise fails with its number and name; on success it pops unless the cursor is the root; an opening line pushes a fresh tag |
| Builder.CloseOnRoot | c_c++/attribute-parser/main.cpp:105-112 | on the synthetic root, a closing line with a non-empty name fails; `</>` is accepted and changes nothing |
| Builder.RunFailsAt | c_c++/attribute-parser/main.cpp:93-112 | a failed run blames an invalid line for a syntax error, and a closing line of that name for a closing error |
| Builder.BuildTree | c_c++/attribute-parser/main.cpp:85-148 | a successful build returns the unnamed root; a failing one blames a line it can point at, unless it is the missing-closing-tag error (what the root holds is stated by Documents.BuildsDocument and Inversion.BuildsOnlyDocuments) |
| Builder.BuildFromScans | c_c++/attribute-parser/main.cpp:99-109 | a syntax error names a line no pattern matched; a closing error names a line that reads `</name>` |
| Builder.BuildTagTree | c_c++/attribute-parser/main.cpp:85-148 | the in-place loop with early returns computes the same result as the fold |
| Builder.RunAppend | c_c++/attribute-parser/main.cpp:93-95 | running two pieces of input in turn is running their concatenation, with the second numbered after the first |
| Builder.NodeCount | c_c++/attribute-parser/main.cpp:113-121 | a successful build has exactly one node below the root per opening line |
| Documents.DocBuilds | c_c++/attribute-parser/main.cpp:105-121 | an element's lines, read from any cursor, build that element as the cursor's next child and bring the cursor back |
| Documents.BuildsDocument | c_c++/attribute-parser/main.cpp:85-147 | the lines of a well-nested document build the unnamed root whose children are the top-level elements in document order, with their pairs and children |
| Documents.BuildsDocumentText | c_c++/attribute-parser/main.cpp:93-147 | every line of a good document written out as text is accepted by the full-line pattern, and the lines build the root holding the document's elements in order |
| Inversion.BuildsOnlyDocuments | c_c++/attribute-parser/main.cpp:85-147 | the converse of Documents.BuildsDocument: if every opening line is named and the build succeeds, then the input without its `</>` lines is the lines of some well-nested elements, and the tree is the unnamed root holding exactly those elements in order |
| Inversion.ScansBuildOnlyDocuments | c_c++/attribute-parser/main.cpp:93-147 | the same from the regular expressions' verdicts: whatever text builds is a document's text, apart from `</>` lines at the root |
| Inversion.RunShape | c_c++/attribute-parser/main.cpp:93-144 | at every point of a successful run, the lines read so far are complete elements at the root followed by named open elements with their completed children, and the stack holds exactly their tags |
| Inversion.OpenBuilds | c_c++/attribute-parser/main.cpp:93-144 | every open state is reachable: complete elements at the root followed by any nesting of open elements, each with completed children, build exactly the stack of their tags |
| Inversion.UnclosedFails | c_c++/attribute-parser/main.cpp:145-146 | input that ends with one or more elements still open, at any depth and after any complete elements, fails with the missing-closing-tag error |
| Inversion.MissingCloseIsUnclosed | c_c++/attribute-parser/main.cpp:93-146 | conversely, when every opening line is named and the build fails with the missing-closing-tag error, the input without its `</>` lines is complete elements followed by at least one open element |
| Inversion.MismatchedCloseFails | c_c++/attribute-parser/main.cpp:104-109 | in any open state, a closing line whose name differs from the innermost open element's (or from the root's empty name when none is open) fails with that line's number and name, whatever follows |
| Inversion.StopsAtClose | c_c++/attribute-parser/main.cpp:104-109 | after any successful prefix, a closing line not naming the tag on top of the stack fails the whole build at that line's number |
| Inversion.CloseOfOuterFails | c_c++/attribute-parser/main.cpp:104-109 | closing an outer element while an inner one is open (`<a>`, `<b>`, `</a>`) fails on line 3 naming `a` |
| Query.KeyOf | c_c++/attribute-parser/main.cpp:174 | the key is exactly what follows the first `~` of the query |
| Query.KeyAfterTilde | c_c++/attribute-parser/main.cpp:174 | at any `~`, recomputing `input.substr(input.find('~') + 1)` gives that key |
| Query.Scan | c_c++/attribute-parser/main.cpp:156-200 | once a value is recorded, the result is some value; the result differs from the recorded one only if a `~` is still ahead |
| Query.GetAttrVal | c_c++/attribute-parser/main.cpp:150-202 | a query without `~` returns none |
| Query.GetAttrValLoop | c_c++/attribute-parser/main.cpp:150-202 | the C++ loop with its `break`s returns what the recursive scan returns |
| Query.Advance | c_c++/attribute-parser/main.cpp:158-199 | one loop iteration: a missing child stops with the value so far; otherwise the rest of the scan from the new state gives the same result |
| Query.TildeAt | c_c++/attribute-parser/main.cpp:166-176 | at `~` with an existing child: descend, record the key's value if the child has it, and restart the token as the key |
| Query.DotAt | c_c++/attribute-parser/main.cpp:188-196 | at `.` with an existing child: descend and clear the token |
| Query.CharAt | c_c++/attribute-parser/main.cpp:198-199 | any other character joins the token |
| Query.MissingAt | c_c++/attribute-parser/main.cpp:170-171 | a delimiter naming a missing child ends the scan with the value so far |
| Query.MissingChildStops | c_c++/attribute-parser/main.cpp:190-195 | no backtracking: a missing child ends the scan with the value already recorded, whatever follows |
| Query.PathQuery | c_c++/attribute-parser/main.cpp:153-176 | for segments and a key free of `.` and `~`, `s1.….sn~k` returns `k`'s value at the tag the path reaches, and none when the path leaves the tree or that tag lacks the key |
| Query.RepeatedTilde | c_c++/attribute-parser/main.cpp:174-176 | with a second `~`, the text up to it is appended to the key to name the next child, and a value found there under the same key replaces the first |
| AttributeParser.TopLevelAttrQuery | c_c++/attribute-parser/main.cpp:140 | end to end: on the tree built from a document, `name~key` for a top-level element returns the value of the element's last pair with that key |
| AttributeParser.NoPairsNoValue | c_c++/attribute-parser/main.cpp:174-176 | end to end: an element with no pairs answers no attribute query |

## Left out

- `main` (lines 204-235) is stdin/stdout plumbing and is not modelled. This includes the line counts, the line joining and the `"Not Found!"` output.
- The stderr message and `exit(1)` of `err_and_exit` (lines 31-37) are not modelled. Each error is a `BuildError` value carrying the same line number and name.
- The debug printer `operator<<` (lines 71-83) is output only and is not modelled.
- `std::regex` matching (lines 99-101, 129-130 and the `sm.suffix()` advance at 141) is an oracle, `Scanned`. The set of lines the full-line pattern accepts is modelled (`Patterns.Accepted`), but the line handling does not compute it: it takes the verdict from the oracle. `regex_search`'s leftmost, greedy choice of each attribute match is not modelled either. `Tokenizer.WellScanned` states what the model relies on from a match:
  - the line is `<`, a non-blank character, anything, then `>`;
  - every attribute match ends within the text after the name;
  - every pair can be read without an exception.
- Tokenizer.WellScanned: assumes only that the character after `<` is not a space, tab or newline. `\S` also excludes vertical tab, form feed and carriage return, so this assumption is weaker than the pattern. `Patterns.AcceptedShape` shows that the assumed shape follows from acceptance.
- Rendering.GoodPair: the written-out round trip covers only values that do not end in `=`. With such a value, the attribute pattern's greedy `[\S=]+` can run on into the value, and one match then takes the next pair too, so the program reads one pair fewer. The model does not describe this case, because it does not model `regex_search`.
- Rendering.GoodPair: values are also free of line breaks, since `getline` never yields one.
- Rendering.SpacedOpenReads: covers a line with one pair. For several pairs written with blanks around `=` or inside the quotes, each pair is covered by Rendering.SpacedPairReads, but the whole line is covered only in the blank-free layout of Rendering.OpenRoundTrip.
- The `shared_ptr` ownership and the raw `parent` pointer (lines 41-43, 66) are replaced by the stack. The same goes for the dangling parent pointers in the copy of `curr_origin` returned at line 147.
- The branch `curr == nullptr` (lines 115-119) is dead and not modelled. The branches `tag == nullptr` (lines 160-165 and 180-187) are dead too, because `tag` starts at `&tag_tree`.
- Strings.Trim: requires a non-blank character. On an all-blank string, `trim` throws `std::out_of_range` from `substr(npos)` at line 18; the exception is not modelled. Strings.LTrim carries the same requirement for the same reason. For a line of input, `Tokenizer.Extractable` rules this out as part of `WellScanned`.
- `Tags.Size` counts nodes. It models no source line and only supports `Builder.NodeCount`.
- A closing line `</>` matches the full-line pattern, because `\S+` matches `/`. On the synthetic root, whose name is empty, it is accepted and changes nothing, and the model does the same (`Builder.CloseOnRoot`). So a closing line on the root fails only when its name is non-empty.
- Queries are scanned from the tree passed in. A query's first segment therefore names one of the root's children; it is never checked against the root's own name.

=== FILE: builder.dfy ===
/** `build_tag_tree`: the line-driven state machine that turns classified
    lines into a tag tree. The C++ keeps a cursor into the tree and a parent
    pointer per tag; here the open tags form a stack whose bottom is the
    unnamed synthetic root and whose top is the cursor. A tag is attached to
    its parent when it is closed, which yields the same tree on success. */
module Builder {
  import opened Wrappers
  import opened Tags
  import opened Tokenizer

  /** The three ways `err_and_exit` ends a build. */
  datatype BuildError =
    | SyntaxError(line: nat)                         // the line matched no pattern
    | ClosingInexistingTag(line: nat, name: string)  // the closing name is not the cursor's
    | MissingClosingTag                              // input ended inside a tag

  /** The cursor: the innermost open tag. */
  function Top(stack: seq<Tag>): Tag
    requires |stack| >= 1
  {
    stack[|stack| - 1]
  }

  /** A fresh tag for an opening line, its pairs written in line order. */
  function Opened(name: string, pairs: seq<Attr>): (r: Tag)
    ensures r.name == name && r.children == []
    ensures r.attrs == Assigned(pairs)
  {
    EmptyMerge(Assigned(pairs));
    AddAttrs(Tag(name, map[], []), pairs)
  }

  /** Overriding the empty map gives the override. */
  lemma {:induction false} EmptyMerge(m: map<string, string>)
    ensures map[] + m == m
  {
  }

  /** Closing the cursor tag: it becomes the last child of its parent, and the
      parent becomes the cursor. */
  function Pop(stack: seq<Tag>): (r: seq<Tag>)
    requires |stack| >= 2
    ensures |r| == |stack| - 1
    ensures r[..|r| - 1] == stack[..|stack| - 2]
    ensures Top(r) == AppendChild(stack[|stack| - 2], Top(stack))
  {
    stack[..|stack| - 2] + [AppendChild(stack[|stack| - 2], Top(stack))]
  }

  /** One line, numbered `num`. An opening line pushes a new tag; a closing
      line must name the cursor, and then pops it unless the cursor is the
      root, which has no parent and stays. */
  function Step(stack: seq<Tag>, line: Line, num: nat): (r: Result<seq<Tag>, BuildError>)
    requires |stack| >= 1
    ensures r.Success? ==> |r.value| >= 1 && r.value[0].name == stack[0].name
    ensures line.Invalid? ==> r == Failure(SyntaxError(num))
    ensures line.Close? ==> (r.Success? <==> line.name == Top(stack).name)
    ensures line.Close? && r.Failure? ==> r.error == ClosingInexistingTag(num, line.name)
    ensures line.Close? && r.Success? ==> r.value == if |stack| == 1 then stack else Pop(stack)
    ensures line.Open? ==> r == Success(stack + [Opened(line.name, line.pairs)])
  {
    match line
    case Invalid => Failure(SyntaxError(num))
    case Close(name) =>
      if name != Top(stack).name then Failure(ClosingInexistingTag(num, name))
      else if |stack| == 1 then Success(stack)
      else Success(Pop(stack))
    case Open(name, pairs) => Success(stack + [Opened(name, pairs)])
  }

  /** An error a run over `lines` (numbered from `num + 1`) can stop with: a
      syntax error on an invalid line, or a closing error on a closing line
      with that name. */
  predicate ErrorAt(e: BuildError, lines: seq<Line>, num: nat) {
    match e
    case SyntaxError(n) => num < n <= num + |lines| && lines[n - num - 1].Invalid?
    case ClosingInexistingTag(n, name) => num < n <= num + |lines| && lines[n - num - 1] == Close(name)
    case MissingClosingTag => false
  }

  /** The main loop over the lines, numbered from `num + 1`. */
  function Run(stack: seq<Tag>, lines: seq<Line>, num: nat): (r: Result<seq<Tag>, BuildError>)
    requires |stack| >= 1
    decreases |lines|, 0
    ensures r.Success? ==> |r.value| >= 1 && r.value[0].name == stack[0].name
  {
    if lines == [] then Success(stack) else Then(Step(stack, lines[0], num + 1), lines[1..], num + 1)
  }

  /** Carry on after a partial result: stop on its error, or run `lines`
      (numbered from `num + 1`) from the stack it left. */
  function Then(r: Result<seq<Tag>, BuildError>, lines: seq<Line>, num: nat): Result<seq<Tag>, BuildError>
    requires r.Success? ==> |r.value| >= 1
    decreases |lines|, 1
  {
    if r.Failure? then r else Run(r.value, lines, num)
  }

  /** A failed run stops on a line it can blame: an invalid line for a syntax
      error, a closing line of that name for a closing error. */
  lemma {:induction false} RunFailsAt(stack: seq<Tag>, lines: seq<Line>, num: nat)
    requires |stack| >= 1
    ensures Run(stack, lines, num).Failure? ==> ErrorAt(Run(stack, lines, num).error, lines, num)
    decreases |lines|
  {
    if lines != [] {
      var step := Step(stack, lines[0], num + 1);
      if step.Success? {
        RunFailsAt(step.value, lines[1..], num + 1);
        var r := Run(step.value, lines[1..], num + 1);
        assert Run(stack, lines, num) == r;
        if r.Failure? {
          ErrorAtShift(r.error, lines, num);
        }
      }
    }
  }

  /** A line blamed in the rest of the input is blamed in the whole input. */
  lemma {:induction false} ErrorAtShift(e: BuildError, lines: seq<Line>, num: nat)
    requires |lines| >= 1 && ErrorAt(e, lines[1..], num + 1)
    ensures ErrorAt(e, lines, num)
  {
    if !e.MissingClosingTag? {
      assert lines[1..][e.line - (num + 1) - 1] == lines[e.line - num - 1];
    }
  }

  /** `build_tag_tree` on classified lines: run from the synthetic root, then
      insist the cursor is back on it. */
  function BuildTree(lines: seq<Line>): (r: Result<Tag, BuildError>)
    ensures r.Success? ==> r.value.name == ""
    ensures r.Failure? && !r.error.MissingClosingTag? ==> ErrorAt(r.error, lines, 0)
  {
    RunFailsAt([Root], lines, 0);
    match Run([Root], lines, 0)
    case Failure(e) => Failure(e)
    case Success(stack) =>
      if |stack| == 1 then Success(stack[0]) else Failure(MissingClosingTag)
  }

  /** Every line classified, in order: a line is invalid exactly when no
      pattern matched it, and every opening line has a non-empty name. */
  function ClassifyAll(scans: seq<Scanned>): (r: seq<Line>)
    requires forall i :: 0 <= i < |scans| ==> WellScanned(scans[i])
    ensures |r| == |scans|
    ensures forall i :: 0 <= i < |r| ==> (r[i].Invalid? <==> scans[i].NoMatch?)
    ensures forall i :: 0 <= i < |r| ==> r[i].Open? ==> r[i].name != ""
    ensures forall i :: 0 <= i < |scans| ==> r[i] == Classify(scans[i])
  {
    seq(|scans|, i requires 0 <= i < |scans| => Classify(scans[i]))
  }

  /** `build_tag_tree` from the regular expressions' verdicts on the lines: a
      syntax error names a line no pattern matched, a closing error names a
      closing line of that name. */
  function BuildFromScans(scans: seq<Scanned>): (r: Result<Tag, BuildError>)
    requires forall i :: 0 <= i < |scans| ==> WellScanned(scans[i])
    ensures r.Success? ==> r.value.name == ""
    ensures r.Failure? && r.error.SyntaxError? ==>
              1 <= r.error.line <= |scans| && scans[r.error.line - 1].NoMatch?
    ensures r.Failure? && r.error.ClosingInexistingTag? ==>
              1 <= r.error.line <= |scans| && scans[r.error.line - 1].Match? && scans[r.error.line - 1].text == "</" + r.error.name + ">"
  {
    BuildTree(ClassifyAll(scans))
  }

  /** The same loop written as the C++ writes it: a cursor stack updated in
      place, the line number counted up, and an early return on error. */
  method BuildTagTree(lines: seq<Line>) returns (r: Result<Tag, BuildError>)
    ensures r == BuildTree(lines)
  {
    var stack := [Root];
    var num := 0;
    while num < |lines|
      invariant 0 <= num <= |lines| && |stack| >= 1
      invariant Run([Root], lines, 0) == Run(stack, lines[num..], num)
    {
      assert lines[num..][0] == lines[num] && lines[num..][1..] == lines[num + 1..];
      var line := lines[num];
      num := num + 1;
      match line {
        case Invalid =>
          return Failure(SyntaxError(num));
        case Close(name) =>
          if name != stack[|stack| - 1].name {
            return Failure(ClosingInexistingTag(num, name));
          }
          if |stack| > 1 {
            var child := stack[|stack| - 1];
            var parent := stack[|stack| - 2];
            stack := stack[..|stack| - 2] + [parent.(children := parent.children + [child])];
          }
        case Open(name, pairs) =>
          stack := stack + [Opened(name, pairs)];
      }
    }
    assert lines[num..] == [];
    if |stack| > 1 {
      return Failure(MissingClosingTag);
    }
    return Success(stack[0]);
  }

  /** The number of opening lines. */
  function CountOpens(lines: seq<Line>): nat {
    if lines == [] then 0 else (if lines[0].Open? then 1 else 0) + CountOpens(lines[1..])
  }

  /** Nodes in a forest of one more tree. */
  lemma {:induction false} SizeOfSnoc(ts: seq<Tag>, t: Tag)
    ensures SizeOf(ts + [t]) == SizeOf(ts) + Size(t)
  {
    assert (ts + [t])[..|ts|] == ts;
  }

  /** The nodes of a stack: those below the top two, the parent's, the
      cursor's. */
  lemma {:induction false} StackSize(stack: seq<Tag>)
    requires |stack| >= 2
    ensures SizeOf(stack) == SizeOf(stack[..|stack| - 2]) + Size(stack[|stack| - 2]) + Size(Top(stack))
  {
    var n := |stack|;
    var init := stack[..n - 1];
    assert SizeOf(stack) == SizeOf(init) + Size(stack[n - 1]);
    assert init[..n - 2] == stack[..n - 2] && init[n - 2] == stack[n - 2];
    assert SizeOf(init) == SizeOf(stack[..n - 2]) + Size(stack[n - 2]);
  }

  /** Closing a tag moves its nodes under the parent, adding none. */
  lemma {:induction false} PopSize(stack: seq<Tag>)
    requires |stack| >= 2
    ensures SizeOf(Pop(stack)) == SizeOf(stack)
  {
    var n := |stack|;
    var below := stack[..n - 2];
    var parent, child := stack[n - 2], Top(stack);
    assert Pop(stack) == below + [AppendChild(parent, child)];
    SizeOfSnoc(below, AppendChild(parent, child));
    AppendChildSize(parent, child);
    StackSize(stack);
  }

  /** A step adds one node for an opening line and moves nodes around, without
      adding any, for a closing line. */
  lemma {:induction false} StepSize(stack: seq<Tag>, line: Line, num: nat)
    requires |stack| >= 1 && Step(stack, line, num).Success?
    ensures SizeOf(Step(stack, line, num).value) == SizeOf(stack) + (if line.Open? then 1 else 0)
  {
    if line.Open? {
      SizeOfSnoc(stack, Opened(line.name, line.pairs));
      assert Size(Opened(line.name, line.pairs)) == 1;
    } else if |stack| > 1 {
      PopSize(stack);
    }
  }

  /** A run adds exactly one node per opening line. */
  lemma {:induction false} RunSize(stack: seq<Tag>, lines: seq<Line>, num: nat)
    requires |stack| >= 1 && Run(stack, lines, num).Success?
    ensures SizeOf(Run(stack, lines, num).value) == SizeOf(stack) + CountOpens(lines)
    decreases |lines|
  {
    if lines != [] {
      StepSize(stack, lines[0], num + 1);
      RunSize(Step(stack, lines[0], num + 1).value, lines[1..], num + 1);
    }
  }

  /** One node per opening line: a successful build has exactly as many tags
      below the synthetic root as the input has opening lines. */
  lemma {:induction false} NodeCount(lines: seq<Line>)
    requires BuildTree(lines).Success?
    ensures Size(BuildTree(lines).value) == 1 + CountOpens(lines)
  {
    RunSize([Root], lines, 0);
    assert [Root] == [] + [Root];
    SizeOfSnoc([], Root);
    var stack := Run([Root], lines, 0).value;
    assert stack == [] + [stack[0]];
    SizeOfSnoc([], stack[0]);
  }

  /** Running two pieces of input one after the other is running their
      concatenation; the second piece is numbered after the first. */
  lemma {:induction false} RunAppend(stack: seq<Tag>, a: seq<Line>, b: seq<Line>, num: nat)
    requires |stack| >= 1
    ensures Run(stack, a + b, num) == Then(Run(stack, a, num), b, num + |a|)
    decreases |a|
  {
    if a == [] {
      assert a + b == b;
    } else {
      assert (a + b)[0] == a[0] && (a + b)[1..] == a[1..] + b;
      var step := Step(stack, a[0], num + 1);
      if step.Success? {
        RunAppend(step.value, a[1..], b, num + 1);
      }
    }
  }

  /** After a successful first piece, the second runs from where it left. */
  lemma {:induction false} RunAfter(stack: seq<Tag>, a: seq<Line>, b: seq<Line>, num: nat, s: seq<Tag>)
    requires |stack| >= 1 && Run(stack, a, num) == Success(s)
    ensures Run(stack, a + b, num) == Run(s, b, num + |a|)
  {
    RunAppend(stack, a, b, num);
  }

  /** The same, with the second piece's result and numbering given. */
  lemma {:induction false} RunAfterAt(stack: seq<Tag>, a: seq<Line>, b: seq<Line>, num: nat, s: seq<Tag>,
                                      next: nat, r: Result<seq<Tag>, BuildError>)
    requires |stack| >= 1 && Run(stack, a, num) == Success(s)
    requires next == num + |a| && Run(s, b, next) == r
    ensures Run(stack, a + b, num) == r
  {
    RunAppend(stack, a, b, num);
  }

  /** After a successful first piece, one more line is one more step. */
  lemma {:induction false} RunThenStep(stack: seq<Tag>, a: seq<Line>, line: Line, num: nat, s: seq<Tag>)
    requires |stack| >= 1 && Run(stack, a, num) == Success(s)
    ensures Run(stack, a + [line], num) == Step(s, line, num + |a| + 1)
  {
    RunAfter(stack, a, [line], num, s);
    RunSingle(s, line, num + |a|);
  }

  /** A run over one line is a step. */
  lemma {:induction false} RunSingle(stack: seq<Tag>, line: Line, num: nat)
    requires |stack| >= 1
    ensures Run(stack, [line], num) == Step(stack, line, num + 1)
  {
    var step := Step(stack, line, num + 1);
    assert [line][1..] == [];
    assert Run(stack, [line], num) == Then(step, [], num + 1);
    if step.Success? {
      assert Run(step.value, [], num + 1) == step;
    }
  }

  /** A run stops at the first failing step, whatever follows it. */
  lemma {:induction false} RunStopsAt(stack: seq<Tag>, a: seq<Line>, line: Line, b: seq<Line>, num: nat)
    requires |stack| >= 1 && Run(stack, a, num).Success?
    requires Step(Run(stack, a, num).value, line, num + |a| + 1).Failure?
    ensures Run(stack, a + ([line] + b), num) == Failure(Step(Run(stack, a, num).value, line, num + |a| + 1).error)
  {
    RunAppend(stack, a, [line] + b, num);
    var s := Run(stack, a, num).value;
    assert ([line] + b)[0] == line && ([line] + b)[1..] == b;
    assert Run(s, [line] + b, num + |a|) == Then(Step(s, line, num + |a| + 1), b, num + |a| + 1);
  }

  /** A closing line on the synthetic root with a non-empty name always
      fails; with the empty name (`</>`) it is accepted and changes nothing,
      since the root has no parent to move to. */
  lemma {:induction false} CloseOnRoot(root: Tag, name: string, num: nat)
    requires root.name == ""
    ensures name != "" ==> Step([root], Close(name), num) == Failure(ClosingInexistingTag(num, name))
    ensures name == "" ==> Step([root], Close(name), num) == Success([root])
  {
  }
}

=== FILE: documents.dfy ===
/** Well-formed documents, the lines they are written as, and the tree the
    builder must produce from them: the build/parse round trip. */
module Documents {
  import opened Wrappers
  import opened Tags
  import opened Tokenizer
  import opened Rendering
  import opened Builder
  import opened Patterns

  /** A well-nested element as written in a document: its name, its pairs in
      line order, and its child elements. */
  datatype Doc = Elem(name: string, pairs: seq<Attr>, children: seq<Doc>)

  /** An element's lines: its opening line, its children's lines, its closing
      line. */
  function DocLines(d: Doc): seq<Line>
    decreases d, 1
  {
    [Open(d.name, d.pairs)] + ForestLines(d.children) + [Close(d.name)]
  }

  /** The lines of a sequence of sibling elements, in order. */
  function ForestLines(ds: seq<Doc>): seq<Line>
    decreases ds, 0
  {
    if ds == [] then [] else ForestLines(ds[..|ds| - 1]) + DocLines(ds[|ds| - 1])
  }

  /** The tag an element must become: its name, the map its pairs assign
      (the last pair with a key wins), and its children's tags in order. */
  function ToTag(d: Doc): Tag
    decreases d, 1
  {
    Tag(d.name, Assigned(d.pairs), ToTags(d.children))
  }

  function ToTags(ds: seq<Doc>): (r: seq<Tag>)
    decreases ds, 0
    ensures |r| == |ds| && forall i :: 0 <= i < |ds| ==> r[i] == ToTag(ds[i])
  {
    if ds == [] then []
    else
      var init := ds[..|ds| - 1];
      assert forall i :: 0 <= i < |init| ==> init[i] == ds[i];
      ToTags(init) + [ToTag(ds[|ds| - 1])]
  }

  /** The stack after `ts` have been attached, in order, to the cursor tag. */
  function WithChildren(stack: seq<Tag>, ts: seq<Tag>): (r: seq<Tag>)
    requires |stack| >= 1
    ensures |r| == |stack| && r[..|r| - 1] == stack[..|stack| - 1]
    ensures Top(r) == Top(stack).(children := Top(stack).children + ts)
  {
    stack[..|stack| - 1] + [Top(stack).(children := Top(stack).children + ts)]
  }

  /** An element's lines, read from any cursor, build that element as the
      cursor's next child and bring the cursor back. */
  lemma {:induction false} DocBuilds(stack: seq<Tag>, d: Doc, num: nat)
    requires |stack| >= 1
    ensures Run(stack, DocLines(d), num) == Success(WithChildren(stack, [ToTag(d)]))
    decreases d, 1
  {
    var open, close := Open(d.name, d.pairs), Close(d.name);
    var inner := ForestLines(d.children);
    var s1 := stack + [Opened(d.name, d.pairs)];
    RunSingle(stack, open, num);
    ForestBuilds(s1, d.children, num + 1);
    var s2 := WithChildren(s1, ToTags(d.children));
    RunAfter(stack, [open], inner, num, s1);
    ClosesElement(stack, d);
    RunSingle(s2, close, num + 1 + |inner|);
    RunAfter(stack, [open] + inner, [close], num, s2);
  }

  /** Closing an element whose children are all attached yields the element
      as the parent's last child. */
  lemma {:induction false} ClosesElement(stack: seq<Tag>, d: Doc)
    requires |stack| >= 1
    ensures var s2 := WithChildren(stack + [Opened(d.name, d.pairs)], ToTags(d.children));
      |s2| >= 2 && Top(s2).name == d.name && Pop(s2) == WithChildren(stack, [ToTag(d)])
  {
    FillsElement(stack, d);
    PopPushed(stack, ToTag(d));
  }

  /** Attaching an element's children to its fresh tag gives the element. */
  lemma {:induction false} FillsElement(stack: seq<Tag>, d: Doc)
    requires |stack| >= 1
    ensures WithChildren(stack + [Opened(d.name, d.pairs)], ToTags(d.children)) == stack + [ToTag(d)]
  {
    var s1 := stack + [Opened(d.name, d.pairs)];
    var s2 := WithChildren(s1, ToTags(d.children));
    assert s1[..|s1| - 1] == stack;
    assert [] + ToTags(d.children) == ToTags(d.children);
    assert (stack + [ToTag(d)])[..|stack|] == stack;
    SameStack(s2, stack + [ToTag(d)]);
  }

  /** Popping a pushed tag attaches it to the tag below. */
  lemma {:induction false} PopPushed(stack: seq<Tag>, t: Tag)
    requires |stack| >= 1
    ensures Pop(stack + [t]) == WithChildren(stack, [t])
  {
    var s := stack + [t];
    assert s[..|s| - 2] == stack[..|stack| - 1];
    assert s[|s| - 2] == Top(stack);
    SameStack(Pop(s), WithChildren(stack, [t]));
  }

  /** Two stacks with the same cursor and the same tags under it are the same. */
  lemma {:induction false} SameStack(a: seq<Tag>, b: seq<Tag>)
    requires |a| == |b| >= 1 && a[..|a| - 1] == b[..|b| - 1] && Top(a) == Top(b)
    ensures a == b
  {
    assert a == a[..|a| - 1] + [Top(a)];
    assert b == b[..|b| - 1] + [Top(b)];
  }

  /** Sibling elements' lines build those elements, in order, as the cursor's
      next children. */
  lemma {:induction false} ForestBuilds(stack: seq<Tag>, ds: seq<Doc>, num: nat)
    requires |stack| >= 1
    ensures Run(stack, ForestLines(ds), num) == Success(WithChildren(stack, ToTags(ds)))
    decreases ds, 0
  {
    if ds == [] {
      WithNoChildren(stack);
    } else {
      var init, last := ds[..|ds| - 1], ds[|ds| - 1];
      var a := ForestLines(init);
      assert ForestLines(ds) == a + DocLines(last);
      assert ToTags(ds) == ToTags(init) + [ToTag(last)];
      ForestBuilds(stack, init, num);
      var s1 := WithChildren(stack, ToTags(init));
      RunAfter(stack, a, DocLines(last), num, s1);
      DocBuilds(s1, last, num + |a|);
      WithChildrenTwice(stack, ToTags(init), [ToTag(last)]);
    }
  }

  lemma {:induction false} WithNoChildren(stack: seq<Tag>)
    requires |stack| >= 1
    ensures WithChildren(stack, []) == stack
  {
    assert Top(stack).children + [] == Top(stack).children;
  }

  lemma {:induction false} WithChildrenTwice(stack: seq<Tag>, a: seq<Tag>, b: seq<Tag>)
    requires |stack| >= 1
    ensures WithChildren(WithChildren(stack, a), b) == WithChildren(stack, a + b)
  {
    assert Top(stack).children + a + b == Top(stack).children + (a + b);
  }

  /** The build/parse round trip: the lines of a well-nested document build
      the unnamed root whose children are the document's top-level elements,
      in document order, each with its pairs and its own children. */
  lemma {:induction false} BuildsDocument(ds: seq<Doc>)
    ensures BuildTree(ForestLines(ds)) == Success(Tag("", map[], ToTags(ds)))
  {
    ForestBuilds([Root], ds, 0);
    RootWith(ToTags(ds));
  }

  /** Children attached to the synthetic root alone. */
  lemma {:induction false} RootWith(ts: seq<Tag>)
    ensures WithChildren([Root], ts) == [Tag("", map[], ts)]
  {
    assert [] + ts == ts;
  }

  /** An element every line of which the line handling reads back: good
      names, good pairs, all the way down. */
  predicate GoodDoc(d: Doc)
    decreases d, 1
  {
    && GoodName(d.name)
    && (forall i :: 0 <= i < |d.pairs| ==> GoodPair(d.pairs[i]))
    && GoodForest(d.children)
  }

  predicate GoodForest(ds: seq<Doc>)
    decreases ds, 0
  {
    forall i :: 0 <= i < |ds| ==> GoodDoc(ds[i])
  }

  /** An element's lines as text, with where the attribute pattern matches. */
  function DocScans(d: Doc): seq<Scanned>
    decreases d, 1
  {
    [Match(RenderOpen(d.name, d.pairs), PairEnds(d.pairs))] + ForestScans(d.children) + [Match(RenderClose(d.name), [])]
  }

  function ForestScans(ds: seq<Doc>): seq<Scanned>
    decreases ds, 0
  {
    if ds == [] then [] else ForestScans(ds[..|ds| - 1]) + DocScans(ds[|ds| - 1])
  }

  /** The line handling reads `s` as `line`. */
  predicate ReadsLine(s: Scanned, line: Line) {
    WellScanned(s) && Classify(s) == line
  }

  /** `scans` are read, one by one, as `lines`. */
  predicate ReadsAs(scans: seq<Scanned>, lines: seq<Line>) {
    && |scans| == |lines|
    && forall i :: 0 <= i < |scans| ==> ReadsLine(scans[i], lines[i])
  }

  lemma {:induction false} ReadsAsAppend(a: seq<Scanned>, x: seq<Line>, b: seq<Scanned>, y: seq<Line>)
    requires ReadsAs(a, x) && ReadsAs(b, y)
    ensures ReadsAs(a + b, x + y)
  {
    forall i | 0 <= i < |a + b|
      ensures ReadsLine((a + b)[i], (x + y)[i])
    {
      if i < |a| {
        assert (a + b)[i] == a[i] && (x + y)[i] == x[i];
      } else {
        assert (a + b)[i] == b[i - |a|] && (x + y)[i] == y[i - |a|];
      }
    }
  }

  /** A line of text the full-line pattern accepts. */
  ghost predicate AcceptedScan(s: Scanned) {
    s.Match? && Accepted(s.text)
  }

  ghost predicate AllAccepted(scans: seq<Scanned>) {
    forall i :: 0 <= i < |scans| ==> AcceptedScan(scans[i])
  }

  lemma {:induction false} AcceptedAppend(a: seq<Scanned>, b: seq<Scanned>)
    requires AllAccepted(a) && AllAccepted(b)
    ensures AllAccepted(a + b)
  {
    forall i | 0 <= i < |a + b|
      ensures AcceptedScan((a + b)[i])
    {
      if i < |a| {
        assert (a + b)[i] == a[i];
      } else {
        assert (a + b)[i] == b[i - |a|];
      }
    }
  }

  lemma {:induction false} ReadsOne(s: Scanned, line: Line)
    requires ReadsLine(s, line)
    ensures ReadsAs([s], [line])
  {
    assert [s][0] == s && [line][0] == line;
  }

  /** A good element's text lines are read as its lines. */
  lemma {:induction false} DocReads(d: Doc)
    requires GoodDoc(d)
    ensures ReadsAs(DocScans(d), DocLines(d))
    decreases d, 1
  {
    var o := [Match(RenderOpen(d.name, d.pairs), PairEnds(d.pairs))];
    var c := [Match(RenderClose(d.name), [])];
    OpenRoundTrip(d.name, d.pairs);
    ReadsOne(o[0], Open(d.name, d.pairs));
    CloseRoundTrip(d.name);
    ReadsOne(c[0], Close(d.name));
    ForestReads(d.children);
    ReadsAsAppend(o, [Open(d.name, d.pairs)], ForestScans(d.children), ForestLines(d.children));
    ReadsAsAppend(o + ForestScans(d.children), [Open(d.name, d.pairs)] + ForestLines(d.children), c, [Close(d.name)]);
  }

  lemma {:induction false} ForestReads(ds: seq<Doc>)
    requires GoodForest(ds)
    ensures ReadsAs(ForestScans(ds), ForestLines(ds))
    decreases ds, 0
  {
    if ds != [] {
      var init := ds[..|ds| - 1];
      assert GoodForest(init) by {
        forall i | 0 <= i < |init| ensures GoodDoc(init[i]) { assert init[i] == ds[i]; }
      }
      ForestReads(init);
      DocReads(ds[|ds| - 1]);
      ReadsAsAppend(ForestScans(init), ForestLines(init), DocScans(ds[|ds| - 1]), DocLines(ds[|ds| - 1]));
    }
  }

  /** Every text line of a good element is accepted by the full-line
      pattern. */
  lemma {:induction false} DocAccepted(d: Doc)
    requires GoodDoc(d)
    ensures AllAccepted(DocScans(d))
    decreases d, 1
  {
    var o := [Match(RenderOpen(d.name, d.pairs), PairEnds(d.pairs))];
    var c := [Match(RenderClose(d.name), [])];
    OpenAccepted(d.name, d.pairs);
    ClosingAccepted(d.name);
    assert RenderClose(d.name) == "</" + d.name + ">";
    ForestAccepted(d.children);
    AcceptedAppend(o, ForestScans(d.children));
    AcceptedAppend(o + ForestScans(d.children), c);
  }

  lemma {:induction false} ForestAccepted(ds: seq<Doc>)
    requires GoodForest(ds)
    ensures AllAccepted(ForestScans(ds))
    decreases ds, 0
  {
    if ds != [] {
      var init := ds[..|ds| - 1];
      assert GoodForest(init) by {
        forall i | 0 <= i < |init| ensures GoodDoc(init[i]) { assert init[i] == ds[i]; }
      }
      ForestAccepted(init);
      DocAccepted(ds[|ds| - 1]);
      AcceptedAppend(ForestScans(init), DocScans(ds[|ds| - 1]));
    }
  }

  /** The round trip from text: every line of a good document, written out
      line by line, is accepted by the full-line pattern, and the lines build
      the unnamed root holding the document's elements in order. */
  lemma {:induction false} BuildsDocumentText(ds: seq<Doc>)
    requires GoodForest(ds)
    ensures AllAccepted(ForestScans(ds))
    ensures forall i :: 0 <= i < |ForestScans(ds)| ==> WellScanned(ForestScans(ds)[i])
    ensures BuildFromScans(ForestScans(ds)) == Success(Tag("", map[], ToTags(ds)))
  {
    ForestAccepted(ds);
    ForestReads(ds);
    assert ClassifyAll(ForestScans(ds)) == ForestLines(ds);
    BuildsDocument(ds);
  }
}

=== FILE: inversion.dfy ===
/** The converse of the build round trip: whatever the builder accepts is a
    well-nested document, and the tree it returns is that document's. The
    only lines a successful build may hold beyond a document's are `</>`
    lines while the cursor is on the unnamed root, which change nothing. */
module Inversion {
  import opened Wrappers
  import opened Tags
  import opened Tokenizer
  import opened Builder
  import opened Documents

  /** An element whose opening line has been read and whose closing line has
      not: its name, its pairs, and its children completed so far. */
  datatype Frame = Frame(name: string, pairs: seq<Attr>, kids: seq<Doc>)

  /** The element a frame becomes once closed. */
  function Closed(f: Frame): Doc {
    Elem(f.name, f.pairs, f.kids)
  }

  /** The lines read when the elements `top` are complete at the root and
      `frames` are open, outermost first. */
  function OpenLines(top: seq<Doc>, frames: seq<Frame>): seq<Line>
    decreases |frames|
  {
    if frames == [] then ForestLines(top)
    else
      var f := frames[|frames| - 1];
      OpenLines(top, frames[..|frames| - 1]) + [Open(f.name, f.pairs)] + ForestLines(f.kids)
  }

  /** The builder's stack at that point: the root holding `top`, then one tag
      per open element holding its completed children. */
  function OpenStack(top: seq<Doc>, frames: seq<Frame>): (r: seq<Tag>)
    decreases |frames|
    ensures |r| == |frames| + 1
  {
    if frames == [] then [Tag("", map[], ToTags(top))]
    else OpenStack(top, frames[..|frames| - 1]) + [ToTag(Closed(frames[|frames| - 1]))]
  }

  /** The input less its `</>` lines. */
  function Strip(lines: seq<Line>): seq<Line>
    decreases |lines|
  {
    if lines == [] then []
    else
      var last := lines[|lines| - 1];
      Strip(lines[..|lines| - 1]) + (if last == Close("") then [] else [last])
  }

  /** Every opening line names its tag, as the line handling guarantees. */
  predicate NamedOpens(lines: seq<Line>) {
    forall i :: 0 <= i < |lines| ==> lines[i].Open? ==> lines[i].name != ""
  }

  /** Every open element is named. */
  predicate NamedFrames(frames: seq<Frame>) {
    forall j :: 0 <= j < |frames| ==> frames[j].name != ""
  }

  /** Whatever the builder accepts is a document: the input, less its `</>`
      lines, is the lines of some well-nested elements, and the tree built is
      the unnamed root holding exactly those elements in order. */
  lemma {:induction false} BuildsOnlyDocuments(lines: seq<Line>)
    requires NamedOpens(lines) && BuildTree(lines).Success?
    ensures exists ds :: Strip(lines) == ForestLines(ds) && BuildTree(lines).value == Tag("", map[], ToTags(ds))
  {
    var top, frames := RunShape(lines);
    assert frames == [];
    assert Strip(lines) == ForestLines(top);
  }

  /** The same from the regular expressions' verdicts on the lines: the line
      handling never yields an unnamed opening line, so whatever text builds
      is a document's text up to `</>` lines. */
  lemma {:induction false} ScansBuildOnlyDocuments(scans: seq<Scanned>)
    requires forall i :: 0 <= i < |scans| ==> WellScanned(scans[i])
    requires BuildFromScans(scans).Success?
    ensures exists ds :: Strip(ClassifyAll(scans)) == ForestLines(ds) && BuildFromScans(scans).value == Tag("", map[], ToTags(ds))
  {
    BuildsOnlyDocuments(ClassifyAll(scans));
  }

  /** Any open state is reached: the lines of complete elements at the root
      and of open elements with their completed children build exactly the
      stack holding their tags. */
  lemma {:induction false} OpenBuilds(top: seq<Doc>, frames: seq<Frame>)
    ensures Run([Root], OpenLines(top, frames), 0) == Success(OpenStack(top, frames))
    decreases |frames|
  {
    if frames == [] {
      ForestBuilds([Root], top, 0);
      RootWith(ToTags(top));
    } else {
      var init, f := frames[..|frames| - 1], frames[|frames| - 1];
      var a, open := OpenLines(top, init), Open(f.name, f.pairs);
      var s := OpenStack(top, init);
      OpenBuilds(top, init);
      RunThenStep([Root], a, open, 0, s);
      var s1 := s + [Opened(f.name, f.pairs)];
      ForestBuilds(s1, f.kids, |a| + 1);
      FillsElement(s, Closed(f));
      RunAfterAt([Root], a + [open], ForestLines(f.kids), 0, s1, |a| + 1, Success(s + [ToTag(Closed(f))]));
    }
  }

  /** The name of the tag the cursor is on in an open state: the innermost
      open element's, or the root's empty name. */
  function CursorName(frames: seq<Frame>): string {
    if frames == [] then "" else frames[|frames| - 1].name
  }

  /** Input that ends with elements still open fails with the
      missing-closing-tag error, however deeply they are nested and whatever
      complete elements come before and inside them. */
  lemma {:induction false} UnclosedFails(top: seq<Doc>, frames: seq<Frame>)
    requires frames != []
    ensures BuildTree(OpenLines(top, frames)) == Failure(MissingClosingTag)
  {
    OpenBuilds(top, frames);
  }

  /** A closing line that does not name the tag the cursor is on stops the
      build with that line's number and name, whatever follows; on the root
      this is any closing line with a non-empty name. */
  lemma {:induction false} MismatchedCloseFails(top: seq<Doc>, frames: seq<Frame>, other: string, after: seq<Line>)
    requires other != CursorName(frames)
    ensures BuildTree(OpenLines(top, frames) + ([Close(other)] + after))
              == Failure(ClosingInexistingTag(|OpenLines(top, frames)| + 1, other))
  {
    OpenBuilds(top, frames);
    assert Top(OpenStack(top, frames)).name == CursorName(frames);
    StopsAtClose(OpenLines(top, frames), other, after, OpenStack(top, frames));
  }

  /** A closing line that does not name the tag on top of the stack stops
      the build with its own number. */
  lemma {:induction false} StopsAtClose(a: seq<Line>, other: string, b: seq<Line>, s: seq<Tag>)
    requires Run([Root], a, 0) == Success(s) && Top(s).name != other
    ensures BuildTree(a + ([Close(other)] + b)) == Failure(ClosingInexistingTag(|a| + 1, other))
  {
    RunStopsAt([Root], a, Close(other), b, 0);
  }

  /** `<a>`, `<b>`, `</a>`: the closing line names an element that is open
      but not innermost, and the build fails on line 3. */
  lemma {:induction false} CloseOfOuterFails()
    ensures BuildTree([Open("a", []), Open("b", []), Close("a")]) == Failure(ClosingInexistingTag(3, "a"))
  {
    var frames := [Frame("a", [], []), Frame("b", [], [])];
    assert frames[..1] == [Frame("a", [], [])] && [Frame("a", [], [])][..0] == [];
    assert OpenLines([], frames) == [Open("a", []), Open("b", [])];
    MismatchedCloseFails([], frames, "a", []);
  }

  /** The converse of `UnclosedFails`: whenever the build fails with the
      missing-closing-tag error, the input (less `</>` lines) is complete
      elements followed by at least one named element left open. */
  lemma {:induction false} MissingCloseIsUnclosed(lines: seq<Line>)
    requires NamedOpens(lines) && BuildTree(lines) == Failure(MissingClosingTag)
    ensures exists top, frames :: frames != [] && NamedFrames(frames) && Strip(lines) == OpenLines(top, frames)
  {
    RunFailsAt([Root], lines, 0);
    var top, frames := RunShape(lines);
    assert frames != [];
  }

  /** The state of any successful run from the root: some complete elements
      at the root and some named elements open, the input (less `</>` lines)
      being their lines and the stack being their tags. */
  lemma {:induction false} RunShape(lines: seq<Line>) returns (top: seq<Doc>, frames: seq<Frame>)
    requires NamedOpens(lines) && Run([Root], lines, 0).Success?
    ensures NamedFrames(frames)
    ensures Strip(lines) == OpenLines(top, frames)
    ensures Run([Root], lines, 0).value == OpenStack(top, frames)
    decreases |lines|
  {
    if lines == [] {
      return [], [];
    }
    var a, line := lines[..|lines| - 1], lines[|lines| - 1];
    assert lines == a + [line];
    RunAppend([Root], a, [line], 0);
    assert NamedOpens(a) by {
      forall i | 0 <= i < |a| ensures a[i].Open? ==> a[i].name != "" {
        assert a[i] == lines[i];
      }
    }
    top, frames := RunShape(a);
    var s := OpenStack(top, frames);
    RunSingle(s, line, |a|);
    assert Step(s, line, |a| + 1).Success?;
    StripSnoc(a, line);
    match line {
      case Open(name, pairs) =>
        OpenStep(top, frames, name, pairs);
        frames := frames + [Frame(name, pairs, [])];
      case Close(name) =>
        if frames == [] {
          assert name == "";
        } else {
          assert name == frames[|frames| - 1].name;
          top, frames := CloseStep(top, frames);
        }
    }
  }

  /** The input less `</>` lines, one line at a time. */
  lemma {:induction false} StripSnoc(a: seq<Line>, line: Line)
    ensures Strip(a + [line]) == Strip(a) + (if line == Close("") then [] else [line])
  {
    assert (a + [line])[..|a|] == a;
  }

  /** An opening line opens one more frame. */
  lemma {:induction false} OpenStep(top: seq<Doc>, frames: seq<Frame>, name: string, pairs: seq<Attr>)
    requires NamedFrames(frames) && name != ""
    ensures NamedFrames(frames + [Frame(name, pairs, [])])
    ensures OpenLines(top, frames + [Frame(name, pairs, [])]) == OpenLines(top, frames) + [Open(name, pairs)]
    ensures OpenStack(top, frames + [Frame(name, pairs, [])]) == OpenStack(top, frames) + [Opened(name, pairs)]
  {
    var f := Frame(name, pairs, []);
    assert (frames + [f])[..|frames|] == frames;
    assert ForestLines([]) == [];
    assert ToTag(Closed(f)) == Opened(name, pairs);
  }

  /** The closing line of the innermost open element completes it: it joins
      the children of the element around it, or the root's elements. */
  lemma {:induction false} CloseStep(top: seq<Doc>, frames: seq<Frame>) returns (top2: seq<Doc>, frames2: seq<Frame>)
    requires |frames| >= 1 && NamedFrames(frames)
    ensures NamedFrames(frames2)
    ensures OpenLines(top2, frames2) == OpenLines(top, frames) + [Close(frames[|frames| - 1].name)]
    ensures OpenStack(top2, frames2) == Pop(OpenStack(top, frames))
  {
    var init, f := frames[..|frames| - 1], frames[|frames| - 1];
    assert frames == init + [f];
    if init == [] {
      CloseOutermost(top, f);
      top2, frames2 := top + [Closed(f)], [];
    } else {
      var outer, g := init[..|init| - 1], init[|init| - 1];
      assert init == outer + [g];
      assert NamedFrames(outer + [g.(kids := g.kids + [Closed(f)])]) by {
        assert forall j :: 0 <= j < |outer| ==> outer[j] == frames[j];
      }
      CloseInner(top, outer, g, f);
      top2, frames2 := top, outer + [g.(kids := g.kids + [Closed(f)])];
    }
  }

  /** Closing the only open element adds it to the root's elements. */
  lemma {:induction false} CloseOutermost(top: seq<Doc>, f: Frame)
    ensures OpenLines(top + [Closed(f)], []) == OpenLines(top, [f]) + [Close(f.name)]
    ensures OpenStack(top + [Closed(f)], []) == Pop(OpenStack(top, [f]))
  {
    assert [f][..0] == [];
    CompletesLines(ForestLines(top), f);
    PopsTag([Tag("", map[], ToTags(top))], f);
    ForestSnoc(top, Closed(f));
  }

  /** Closing an element inside another adds it to the other's children. */
  lemma {:induction false} CloseInner(top: seq<Doc>, outer: seq<Frame>, g: Frame, f: Frame)
    ensures var g2 := g.(kids := g.kids + [Closed(f)]);
      && OpenLines(top, outer + [g2]) == OpenLines(top, outer + [g] + [f]) + [Close(f.name)]
      && OpenStack(top, outer + [g2]) == Pop(OpenStack(top, outer + [g] + [f]))
  {
    ForestSnoc(g.kids, Closed(f));
    InnerLines(top, outer, g, f);
    InnerStack(top, outer, g, f);
  }

  /** The lines half of `CloseInner`. */
  lemma {:induction false} InnerLines(top: seq<Doc>, outer: seq<Frame>, g: Frame, f: Frame)
    requires ForestLines(g.kids + [Closed(f)]) == ForestLines(g.kids) + DocLines(Closed(f))
    ensures OpenLines(top, outer + [g.(kids := g.kids + [Closed(f)])]) == OpenLines(top, outer + [g] + [f]) + [Close(f.name)]
  {
    var g2 := g.(kids := g.kids + [Closed(f)]);
    var init := outer + [g];
    assert (outer + [g2])[..|outer|] == outer;
    assert init[..|outer|] == outer;
    assert (init + [f])[..|init|] == init;
    var before := OpenLines(top, outer);
    CompletesLines(before + [Open(g.name, g.pairs)] + ForestLines(g.kids), f);
  }

  /** The stack half of `CloseInner`. */
  lemma {:induction false} InnerStack(top: seq<Doc>, outer: seq<Frame>, g: Frame, f: Frame)
    requires ToTags(g.kids + [Closed(f)]) == ToTags(g.kids) + [ToTag(Closed(f))]
    ensures OpenStack(top, outer + [g.(kids := g.kids + [Closed(f)])]) == Pop(OpenStack(top, outer + [g] + [f]))
  {
    var g2 := g.(kids := g.kids + [Closed(f)]);
    var init := outer + [g];
    assert (outer + [g2])[..|outer|] == outer;
    assert init[..|outer|] == outer;
    assert (init + [f])[..|init|] == init;
    PopsTag(OpenStack(top, init), f);
  }

  /** The lines of an open frame, then its closing line, are the lines of
      the element it becomes. */
  lemma {:induction false} CompletesLines(before: seq<Line>, f: Frame)
    ensures before + [Open(f.name, f.pairs)] + ForestLines(f.kids) + [Close(f.name)] == before + DocLines(Closed(f))
  {
  }

  /** Popping a frame's tag attaches the element it becomes. */
  lemma {:induction false} PopsTag(below: seq<Tag>, f: Frame)
    requires |below| >= 1
    ensures Pop(below + [ToTag(Closed(f))]) == below[..|below| - 1] + [AppendChild(below[|below| - 1], ToTag(Closed(f)))]
  {
    var s := below + [ToTag(Closed(f))];
    assert s[..|s| - 2] == below[..|below| - 1];
  }

  /** One more element in a forest: its lines come last, its tag last. */
  lemma {:induction false} ForestSnoc(ds: seq<Doc>, d: Doc)
    ensures ForestLines(ds + [d]) == ForestLines(ds) + DocLines(d)
    ensures ToTags(ds + [d]) == ToTags(ds) + [ToTag(d)]
  {
    assert (ds + [d])[..|ds|] == ds;
  }
}

=== FILE: parser.dfy ===
/** Building and querying together: what a query returns on a tree the
    builder made from a document. */
module AttributeParser {
  import opened Wrappers
  import opened Tags
  import opened Builder
  import opened Documents
  import opened Query

  /** The first top-level element with a given name is the root's first
      child with that name. */
  lemma {:induction false} FirstTopLevel(ds: seq<Doc>, i: nat)
    requires i < |ds|
    requires forall m :: 0 <= m < i ==> ds[m].name != ds[i].name
    ensures FirstChild(Tag("", map[], ToTags(ds)), ds[i].name) == Some(ToTag(ds[i]))
  {
    var ts := ToTags(ds);
    assert ts[i].name == ds[i].name;
    assert forall m :: 0 <= m < i ==> ts[m].name != ds[i].name;
    assert FirstChildIndex(ts, ds[i].name) == Some(i);
  }

  /** A query `name~key` from a tag reads `key` off the tag's first child
      named `name`. */
  lemma {:induction false} ChildQuery(root: Tag, name: string, k: string, c: Tag)
    requires FirstChild(root, name) == Some(c) && NoDelim(name) && NoDelim(k)
    ensures GetAttrVal(root, name + "~" + k) == LookUp(Some(c), k)
  {
    assert Walk(root, [name]) == Some(c) by {
      assert [name][1..] == [];
    }
    PathQuery(root, [name], k);
    assert Join([name]) == name;
  }

  /** Last write wins, end to end: for a top-level element (the first with its
      name) and a key free of delimiters, `name~key` on the built tree returns
      the value of the element's LAST pair with that key. */
  lemma {:induction false} TopLevelAttrQuery(ds: seq<Doc>, i: nat, j: nat)
    requires i < |ds| && j < |ds[i].pairs|
    requires forall m :: 0 <= m < i ==> ds[m].name != ds[i].name
    requires forall m :: j < m < |ds[i].pairs| ==> ds[i].pairs[m].key != ds[i].pairs[j].key
    requires NoDelim(ds[i].name) && NoDelim(ds[i].pairs[j].key)
    ensures BuildTree(ForestLines(ds)).Success?
    ensures GetAttrVal(BuildTree(ForestLines(ds)).value, ds[i].name + "~" + ds[i].pairs[j].key)
              == Some(ds[i].pairs[j].value)
  {
    var d, k := ds[i], ds[i].pairs[j].key;
    BuildsDocument(ds);
    var root := Tag("", map[], ToTags(ds));
    FirstTopLevel(ds, i);
    ChildQuery(root, d.name, k, ToTag(d));
    LastWriteWins(d.pairs, j);
  }

  /** A tag with no pairs answers no attribute query. */
  lemma {:induction false} NoPairsNoValue(ds: seq<Doc>, i: nat, k: string)
    requires i < |ds| && ds[i].pairs == []
    requires forall m :: 0 <= m < i ==> ds[m].name != ds[i].name
    requires NoDelim(ds[i].name) && NoDelim(k)
    ensures BuildTree(ForestLines(ds)).Success?
    ensures GetAttrVal(BuildTree(ForestLines(ds)).value, ds[i].name + "~" + k) == None
  {
    var d := ds[i];
    BuildsDocument(ds);
    var root := Tag("", map[], ToTags(ds));
    FirstTopLevel(ds, i);
    ChildQuery(root, d.name, k, ToTag(d));
  }
}

=== FILE: pattern.dfy ===
/** The full-line pattern of `build_tag_tree`, as the set of lines it
    accepts: an opening tag `<name key = "value" ...>` with any number of
    pairs and trailing spaces, or a closing tag `</name>`. The pattern is
    matched against the whole line, so a line is accepted exactly when it
    splits into the pieces below. `\S` is any character but the six that
    `isspace` reports in the C locale; `[\S=]` is the same set, since `=` is
    not a space. */
module Patterns {
  import opened Tokenizer

  /** `\s`: space, tab, newline, vertical tab, form feed, carriage return. */
  predicate IsSpace(c: char) {
    c == ' ' || c == '\t' || c == '\n' || c == '\r' || c as int == 11 || c as int == 12
  }

  /** `\S+`: a non-empty run of non-space characters. */
  predicate NonSpaces(w: string) {
    0 < |w| && forall i :: 0 <= i < |w| ==> !IsSpace(w[i])
  }

  /** `( )*`: space characters only (a tab is not one). */
  predicate SpaceRun(s: string) {
    forall i :: 0 <= i < |s| ==> s[i] == ' '
  }

  /** `"[^"]+"`: a non-empty quoted text with no quote inside. */
  predicate QuotedValue(s: string) {
    3 <= |s| && s[0] == '"' && s[|s| - 1] == '"' && '"' !in s[1..|s| - 1]
  }

  /** `( )+[\S=]+( )*=( )*"[^"]+"`, split at the end of the leading spaces
      (`a`), of the key (`b`), of the spaces before `=` (`c`, where the `=`
      is) and of the spaces after it (`d`, where the quote opens). */
  predicate AttrSplit(s: string, a: nat, b: nat, c: nat, d: nat) {
    && 0 < a < b <= c < d <= |s|
    && SpaceRun(s[..a]) && NonSpaces(s[a..b]) && SpaceRun(s[b..c])
    && s[c] == '=' && SpaceRun(s[c + 1..d]) && QuotedValue(s[d..])
  }

  /** One attribute of an opening tag. */
  ghost predicate AttrText(s: string) {
    exists a: nat, b: nat, c: nat, d: nat :: AttrSplit(s, a, b, c, d)
  }

  /** `(attribute)*( )*`: attributes one after the other, then spaces. */
  ghost predicate AttrsThenSpaces(s: string)
    decreases |s|
  {
    SpaceRun(s) || exists j :: 0 < j <= |s| && AttrText(s[..j]) && AttrsThenSpaces(s[j..])
  }

  /** `\S+(attribute)*( )*`: the inside of an opening tag. */
  ghost predicate OpeningBody(body: string) {
    exists k :: 0 < k <= |body| && NonSpaces(body[..k]) && AttrsThenSpaces(body[k..])
  }

  /** `/\S+`: the inside of a closing tag. */
  predicate ClosingBody(body: string) {
    2 <= |body| && body[0] == '/' && NonSpaces(body[1..])
  }

  /** A line the full-line pattern accepts. */
  ghost predicate Accepted(line: string) {
    && 2 <= |line| && line[0] == '<' && line[|line| - 1] == '>'
    && (OpeningBody(line[1..|line| - 1]) || ClosingBody(line[1..|line| - 1]))
  }

  /** Every accepted line has the shape the line handling relies on: `<`, a
      character `trim` does not strip, anything, `>`. */
  lemma {:induction false} AcceptedShape(line: string)
    requires Accepted(line)
    ensures LineShape(line)
  {
    var body := line[1..|line| - 1];
    if OpeningBody(body) {
      var k :| 0 < k <= |body| && NonSpaces(body[..k]) && AttrsThenSpaces(body[k..]);
      assert body[..k][0] == line[1];
    } else {
      assert body[0] == line[1];
    }
  }

  /** A closing tag around a non-space name is accepted. */
  lemma {:induction false} ClosingAccepted(name: string)
    requires NonSpaces(name)
    ensures Accepted("</" + name + ">")
  {
    var line := "</" + name + ">";
    var body := line[1..|line| - 1];
    assert body == "/" + name;
    assert body[1..] == name;
  }

  /** ` key="value"` is one attribute when the key has no space and the
      value no quote. */
  lemma {:induction false} AttrAccepted(key: string, value: string)
    requires NonSpaces(key) && 0 < |value| && '"' !in value
    ensures AttrText(" " + key + "=\"" + value + "\"")
  {
    var s := " " + key + "=\"" + value + "\"";
    var b := 1 + |key|;
    assert s[..1] == " ";
    assert s[1..b] == key;
    assert s[b..b] == [] && s[b] == '=' && s[b + 1..b + 1] == [];
    assert s[b + 1..] == "\"" + value + "\"";
    assert s[b + 1..][1..|s[b + 1..]| - 1] == value;
    assert AttrSplit(s, 1, b, b, b + 1);
  }

  /** ` key = "value"`, with any runs of spaces around the `=`, is one
      attribute when the key has no space character. */
  lemma {:induction false} SpacedAttrAccepted(key: string, s1: string, s2: string, quoted: string)
    requires NonSpaces(key) && SpaceRun(s1) && SpaceRun(s2) && QuotedValue(quoted)
    ensures AttrText(" " + key + s1 + "=" + s2 + quoted)
  {
    var s := " " + key + s1 + "=" + s2 + quoted;
    var b := 1 + |key|;
    var c := b + |s1|;
    var d := c + 1 + |s2|;
    assert s[..1] == " ";
    assert s[1..b] == key;
    assert s[b..c] == s1;
    assert s[c] == '=';
    assert s[c + 1..d] == s2;
    assert s[d..] == quoted;
    assert AttrSplit(s, 1, b, c, d);
  }

  /** One more attribute in front of accepted attributes. */
  lemma {:induction false} AttrsPrepend(x: string, rest: string)
    requires AttrText(x) && AttrsThenSpaces(rest)
    ensures AttrsThenSpaces(x + rest)
  {
    var a: nat, b: nat, c: nat, d: nat :| AttrSplit(x, a, b, c, d);
    var s := x + rest;
    assert s[..|x|] == x && s[|x|..] == rest;
  }

  /** An opening tag whose name has no space, followed by accepted
      attributes, is accepted. */
  lemma {:induction false} OpeningAccepted(name: string, rest: string)
    requires NonSpaces(name) && AttrsThenSpaces(rest)
    ensures Accepted("<" + name + rest + ">")
  {
    var line := "<" + name + rest + ">";
    var body := line[1..|line| - 1];
    assert body == name + rest;
    assert body[..|name|] == name && body[|name|..] == rest;
  }

  /** Each character of a non-space run is not a space. */
  lemma {:induction false} NoSpaceAt(w: string, i: nat)
    requires NonSpaces(w) && i < |w|
    ensures !IsSpace(w[i])
  {
  }

  /** Attributes, and the spaces after them, start with a space. */
  lemma {:induction false} AttrsLeadWithSpace(s: string)
    requires AttrsThenSpaces(s) && 0 < |s|
    ensures s[0] == ' '
  {
    if !SpaceRun(s) {
      var j :| 0 < j <= |s| && AttrText(s[..j]) && AttrsThenSpaces(s[j..]);
      var a: nat, b: nat, c: nat, d: nat :| AttrSplit(s[..j], a, b, c, d);
      assert s[..j][..a][0] == s[0];
    }
  }

  /** The pattern is not lenient about names: a tab inside a tag name, as in
      `<a\tb>`, makes the line a syntax error. */
  lemma {:induction false} TabInNameRejected()
    ensures !Accepted("<a\tb>")
  {
    var line := "<a\tb>";
    var body := line[1..|line| - 1];
    assert body == "a\tb";
    if OpeningBody(body) {
      var k :| 0 < k <= |body| && NonSpaces(body[..k]) && AttrsThenSpaces(body[k..]);
      if k > 1 {
        NoSpaceAt(body[..k], 1);
        assert false;
      }
      AttrsLeadWithSpace(body[k..]);
      assert false;
    }
  }
}

=== FILE: query.dfy ===
/** `get_attr_val`: one left-to-right pass over a query such as
    `a.b~value`, descending by tag name at every `.` and `~` and looking up
    an attribute at every `~`. The scan starts ON the tree it is given (the
    builder's unnamed root), so the first segment names one of its children. */
module Query {
  import opened Wrappers
  import opened Strings
  import opened Tags

  predicate NoDelim(s: string) {
    '.' !in s && '~' !in s
  }

  /** The key every `~` looks up: everything after the FIRST `~` of the
      query, whichever `~` is being processed. It is only consulted when the
      query has a `~`; the empty string otherwise. */
  function KeyOf(query: string): (k: string)
    ensures '~' in query ==> |k| < |query| && query[|query| - |k| - 1] == '~' && '~' !in query[..|query| - |k| - 1]
    ensures '~' in query ==> k == query[|query| - |k|..]
  {
    var i := Find(query, '~');
    if i < |query| then query[i + 1..] else ""
  }

  /** The scan from some point on: `tag` is the current tag, `token` the
      characters gathered since the last delimiter (after a `~` it starts as
      the key, which is written over it rather than cleared), and `res` the
      last value found, never reset. A missing child ends the scan with
      `res`. Only a `~` ever changes the result. */
  function Scan(tag: Tag, token: string, res: Option<string>, rest: string, key: string): (r: Option<string>)
    decreases |rest|
    ensures res.Some? ==> r.Some?
    ensures r != res ==> '~' in rest && r.Some?
  {
    if rest == [] then res
    else if rest[0] == '~' then
      match FirstChild(tag, token)
      case None => res
      case Some(child) =>
        var found := if key in child.attrs then Some(child.attrs[key]) else res;
        Scan(child, key, found, rest[1..], key)
    else if rest[0] == '.' then
      match FirstChild(tag, token)
      case None => res
      case Some(child) =>
        var r := Scan(child, [], res, rest[1..], key);
        assert r != res ==> '~' in rest by { if r != res { assert '~' in rest[1..]; } }
        r
    else
      var r := Scan(tag, token + [rest[0]], res, rest[1..], key);
      assert r != res ==> '~' in rest by { if r != res { assert '~' in rest[1..]; } }
      r
  }

  /** Where the query has a `~`, the C++ recomputation of the key after the
      first `~` gives the key. */
  lemma {:induction false} KeyAfterTilde(query: string, i: nat)
    requires i < |query| && query[i] == '~'
    ensures Find(query, '~') < |query| && query[Find(query, '~') + 1..] == KeyOf(query)
  {
    var j := Find(query, '~');
  }

  /** `get_attr_val(tree, query)`. A query without `~` never finds a value. */
  function GetAttrVal(tree: Tag, query: string): (r: Option<string>)
    ensures '~' !in query ==> r == None
  {
    Scan(tree, [], None, query, KeyOf(query))
  }

  /** The C++ loop itself: a cursor, a token, a result, and a `break` when a
      child is missing. */
  method GetAttrValLoop(tree: Tag, query: string) returns (res: Option<string>)
    ensures res == GetAttrVal(tree, query)
  {
    res := None;
    var tag := tree;
    var token: string := [];
    var i := 0;
    while i < |query|
      invariant 0 <= i <= |query|
      invariant Scan(tag, token, res, query[i..], KeyOf(query)) == GetAttrVal(tree, query)
    {
      var stop;
      tag, token, res, stop := Advance(tag, token, res, query, i);
      if stop {
        return;
      }
      i := i + 1;
    }
  }

  /** The body of the C++ loop for the character at `i`: the new tag, token
      and result, or `stop` when the child a delimiter names is missing. */
  method Advance(tag: Tag, token: string, res: Option<string>, query: string, i: nat)
    returns (tag': Tag, token': string, res': Option<string>, stop: bool)
    requires i < |query|
    ensures stop ==> res' == res && Scan(tag, token, res, query[i..], KeyOf(query)) == res
    ensures !stop ==> Scan(tag, token, res, query[i..], KeyOf(query))
                        == Scan(tag', token', res', query[i + 1..], KeyOf(query))
  {
    tag', token', res', stop := tag, token, res, false;
    var c := query[i];
    if c == '~' {
      KeyAfterTilde(query, i);
      var child := FirstChild(tag, token);
      if child.None? {
        MissingAt(tag, token, res, query, i, KeyOf(query));
        stop := true;
        return;
      }
      TildeAt(tag, token, res, query, i, KeyOf(query), child.value);
      tag' := child.value;
      token' := query[Find(query, '~') + 1..];
      if token' in tag'.attrs {
        res' := Some(tag'.attrs[token']);
      }
    } else if c == '.' {
      var child := FirstChild(tag, token);
      if child.None? {
        MissingAt(tag, token, res, query, i, KeyOf(query));
        stop := true;
        return;
      }
      DotAt(tag, token, res, query, i, KeyOf(query), child.value);
      tag' := child.value;
      token' := [];
    } else {
      CharAt(tag, token, res, query, i, KeyOf(query));
      token' := token + [c];
    }
  }

  /** One step of the scan at a `~` whose child exists: descend, record the
      key's value if the child has it, and restart the token as the key. */
  lemma {:induction false} TildeAt(tag: Tag, token: string, res: Option<string>, s: string, i: nat, key: string, c: Tag)
    requires i < |s| && s[i] == '~' && FirstChild(tag, token) == Some(c)
    ensures Scan(tag, token, res, s[i..], key)
              == Scan(c, key, if key in c.attrs then Some(c.attrs[key]) else res, s[i + 1..], key)
  {
    assert s[i..][0] == s[i] && s[i..][1..] == s[i + 1..];
  }

  /** One step of the scan at a `.` whose child exists: descend and clear the
      token. */
  lemma {:induction false} DotAt(tag: Tag, token: string, res: Option<string>, s: string, i: nat, key: string, c: Tag)
    requires i < |s| && s[i] == '.' && FirstChild(tag, token) == Some(c)
    ensures Scan(tag, token, res, s[i..], key) == Scan(c, [], res, s[i + 1..], key)
  {
    assert s[i..][0] == s[i] && s[i..][1..] == s[i + 1..];
  }

  /** One step of the scan at any other character: it joins the token. */
  lemma {:induction false} CharAt(tag: Tag, token: string, res: Option<string>, s: string, i: nat, key: string)
    requires i < |s| && s[i] != '~' && s[i] != '.'
    ensures Scan(tag, token, res, s[i..], key) == Scan(tag, token + [s[i]], res, s[i + 1..], key)
  {
    assert s[i..][0] == s[i] && s[i..][1..] == s[i + 1..];
  }

  /** A delimiter naming a missing child ends the scan with the value so far. */
  lemma {:induction false} MissingAt(tag: Tag, token: string, res: Option<string>, s: string, i: nat, key: string)
    requires i < |s| && (s[i] == '~' || s[i] == '.') && FirstChild(tag, token).None?
    ensures Scan(tag, token, res, s[i..], key) == res
  {
    assert s[i..][0] == s[i];
  }

  /** Characters that are not delimiters only grow the token. */
  lemma {:induction false} ScanWord(tag: Tag, token: string, res: Option<string>, w: string, rest: string, key: string)
    requires NoDelim(w)
    ensures Scan(tag, token, res, w + rest, key) == Scan(tag, token + w, res, rest, key)
    decreases |w|
  {
    if w == [] {
      assert w + rest == rest && token + w == token;
    } else {
      assert (w + rest)[0] == w[0] && (w + rest)[1..] == w[1..] + rest;
      assert '.' !in w[1..] && '~' !in w[1..];
      ScanWord(tag, token + [w[0]], res, w[1..], rest, key);
      assert token + [w[0]] + w[1..] == token + w;
    }
  }

  /** No backtracking: when the current tag has no child named by the segment
      just read, the scan ends with the value already recorded, whatever the
      rest of the query holds. */
  lemma {:induction false} MissingChildStops(tag: Tag, token: string, res: Option<string>, w: string, d: char, tail: string, key: string)
    requires NoDelim(w) && (d == '.' || d == '~')
    requires FirstChild(tag, token + w).None?
    ensures Scan(tag, token, res, w + [d] + tail, key) == res
  {
    assert w + [d] + tail == w + ([d] + tail);
    ScanWord(tag, token, res, w, [d] + tail, key);
    assert ([d] + tail)[0] == d;
  }

  /** A word followed by `~` whose child exists: descend, record the key's
      value if the child has it, and go on with the token set to the key. */
  lemma {:induction false} TildeAfter(tag: Tag, token: string, res: Option<string>, w: string, tail: string, key: string, c: Tag)
    requires NoDelim(w) && FirstChild(tag, token + w) == Some(c)
    ensures Scan(tag, token, res, w + "~" + tail, key)
              == Scan(c, key, if key in c.attrs then Some(c.attrs[key]) else res, tail, key)
  {
    assert w + "~" + tail == w + ("~" + tail);
    ScanWord(tag, token, res, w, "~" + tail, key);
    TildeAt(tag, token + w, res, "~" + tail, 0, key, c);
    assert ("~" + tail)[0..] == "~" + tail && ("~" + tail)[1..] == tail;
  }

  /** A word followed by `.` whose child exists: descend with an empty token. */
  lemma {:induction false} DotAfter(tag: Tag, token: string, res: Option<string>, w: string, tail: string, key: string, c: Tag)
    requires NoDelim(w) && FirstChild(tag, token + w) == Some(c)
    ensures Scan(tag, token, res, w + "." + tail, key) == Scan(c, [], res, tail, key)
  {
    assert w + "." + tail == w + ("." + tail);
    ScanWord(tag, token, res, w, "." + tail, key);
    DotAt(tag, token + w, res, "." + tail, 0, key, c);
    assert ("." + tail)[0..] == "." + tail && ("." + tail)[1..] == tail;
  }

  /** A trailing word without delimiters changes nothing. */
  lemma {:induction false} WordEnds(tag: Tag, token: string, res: Option<string>, w: string, key: string)
    requires NoDelim(w)
    ensures Scan(tag, token, res, w, key) == res
  {
    ScanWord(tag, token, res, w, [], key);
    assert w + [] == w;
  }

  /** The key of a query whose first `~` follows `w` is what comes after it. */
  lemma {:induction false} KeyOfAfter(w: string, key: string)
    requires '~' !in w
    ensures KeyOf(w + "~" + key) == key
  {
    var q := w + "~" + key;
    FindAt(q, '~', |w|) by {
      assert q[..|w|] == w;
    }
    assert q[|w| + 1..] == key;
  }

  /** The tag a dotted path of segments leads to from `t`, each step taking
      the first child with that name. */
  function Walk(t: Tag, segs: seq<string>): Option<Tag>
    decreases |segs|
  {
    if segs == [] then Some(t)
    else
      match FirstChild(t, segs[0])
      case None => None
      case Some(c) => Walk(c, segs[1..])
  }

  /** The segments joined with `.`. */
  function Join(segs: seq<string>): string
    requires |segs| >= 1
  {
    if |segs| == 1 then segs[0] else segs[0] + "." + Join(segs[1..])
  }

  lemma {:induction false} JoinNoTilde(segs: seq<string>)
    requires |segs| >= 1 && forall i :: 0 <= i < |segs| ==> NoDelim(segs[i])
    ensures '~' !in Join(segs)
    decreases |segs|
  {
    if |segs| > 1 {
      assert forall i :: 0 <= i < |segs| - 1 ==> segs[1..][i] == segs[i + 1];
      JoinNoTilde(segs[1..]);
    }
  }

  /** The value the path query should produce from the tag a walk reaches. */
  function LookUp(t: Option<Tag>, key: string): Option<string> {
    if t.Some? && key in t.value.attrs then Some(t.value.attrs[key]) else None
  }

  /** The scan of `s1.….sn~k` from a tag follows the path and then looks `k`
      up. */
  lemma {:induction false} ScanPath(tag: Tag, segs: seq<string>, k: string)
    requires |segs| >= 1 && (forall i :: 0 <= i < |segs| ==> NoDelim(segs[i])) && NoDelim(k)
    ensures Scan(tag, [], None, Join(segs) + "~" + k, k) == LookUp(Walk(tag, segs), k)
    decreases |segs|
  {
    var s := segs[0];
    assert NoDelim(s);
    assert [] + s == s;
    if |segs| == 1 {
      assert Join(segs) == s;
      match FirstChild(tag, s)
      case None => MissingChildStops(tag, [], None, s, '~', k, k);
      case Some(c) =>
        TildeAfter(tag, [], None, s, k, k, c);
        WordEnds(c, k, LookUp(Some(c), k), k, k);
    } else {
      var more := segs[1..];
      assert forall i :: 0 <= i < |more| ==> more[i] == segs[i + 1];
      var tail := Join(more) + "~" + k;
      assert Join(segs) + "~" + k == s + "." + tail;
      match FirstChild(tag, s)
      case None => MissingChildStops(tag, [], None, s, '.', tail, k);
      case Some(c) =>
        DotAfter(tag, [], None, s, tail, k, c);
        ScanPath(c, more, k);
    }
  }

  /** The build/query round trip on the resolver's side: for segments and a
      key free of delimiters, `s1.….sn~k` returns the key's value at the tag
      the path reaches from the tree passed in, and nothing when the path
      leaves the tree or that tag lacks the key. */
  lemma {:induction false} PathQuery(tree: Tag, segs: seq<string>, k: string)
    requires |segs| >= 1 && (forall i :: 0 <= i < |segs| ==> NoDelim(segs[i])) && NoDelim(k)
    ensures GetAttrVal(tree, Join(segs) + "~" + k) == LookUp(Walk(tree, segs), k)
  {
    JoinNoTilde(segs);
    KeyOfAfter(Join(segs), k);
    ScanPath(tree, segs, k);
  }

  /** A second `~` is not an error: the token after the first `~` is the
      whole key, so the characters up to the second `~` are appended to it and
      that becomes the name of the next child to descend into; a value found
      there (under the same key) replaces the first. */
  lemma {:induction false} RepeatedTilde(tree: Tag, s: string, k1: string, k2: string)
    requires NoDelim(s) && NoDelim(k1) && NoDelim(k2)
    ensures
      var key := k1 + "~" + k2;
      GetAttrVal(tree, s + "~" + key) ==
        match FirstChild(tree, s)
        case None => None
        case Some(c) =>
          var first := if key in c.attrs then Some(c.attrs[key]) else None;
          match FirstChild(c, key + k1)
          case None => first
          case Some(g) => if key in g.attrs then Some(g.attrs[key]) else first
  {
    var key := k1 + "~" + k2;
    KeyOfAfter(s, key);
    assert [] + s == s;
    match FirstChild(tree, s)
    case None => MissingChildStops(tree, [], None, s, '~', key, key);
    case Some(c) =>
      var first := if key in c.attrs then Some(c.attrs[key]) else None;
      TildeAfter(tree, [], None, s, key, key, c);
      match FirstChild(c, key + k1)
      case None => MissingChildStops(c, key, first, k1, '~', k2, key);
      case Some(g) =>
        var second := if key in g.attrs then Some(g.attrs[key]) else first;
        TildeAfter(c, key, first, k1, k2, key, g);
        WordEnds(g, key, second, k2, key);
  }
}

=== FILE: strings.dfy ===
/** The string helpers of the attribute parser: `ltrim`, `rtrim`, `trim` and the
    `find`/`erase` idioms the line handling uses. */
module Strings {

  /** The characters `trim` strips: space, tab and newline. */
  predicate IsBlank(c: char) {
    c == ' ' || c == '\t' || c == '\n'
  }

  predicate AllBlank(s: string) {
    forall i :: 0 <= i < |s| ==> IsBlank(s[i])
  }

  predicate HasNonBlank(s: string) {
    exists i :: 0 <= i < |s| && !IsBlank(s[i])
  }

  /** A string that `trim` leaves alone: non-empty, non-blank at both ends. */
  predicate Trimmed(s: string) {
    0 < |s| && !IsBlank(s[0]) && !IsBlank(s[|s| - 1])
  }

  /** `find_first_not_of(" \t\n")`; only defined where it finds something,
      because `substr(npos)` throws otherwise. */
  function FirstNonBlank(s: string): (i: nat)
    requires HasNonBlank(s)
    ensures i < |s| && !IsBlank(s[i])
    ensures AllBlank(s[..i])
  {
    if !IsBlank(s[0]) then 0
    else
      assert HasNonBlank(s[1..]) by {
        var j :| 0 <= j < |s| && !IsBlank(s[j]);
        assert s[1..][j - 1] == s[j];
      }
      var k := FirstNonBlank(s[1..]);
      assert s[..k + 1] == [s[0]] + s[1..][..k];
      k + 1
  }

  /** `find_last_not_of(" \t\n") + 1`: the end of the last non-blank character,
      and 0 on an all-blank string, where `npos + 1` wraps around to 0. */
  function EndOfNonBlank(s: string): (n: nat)
    ensures n <= |s|
    ensures n == 0 || !IsBlank(s[n - 1])
    ensures AllBlank(s[n..])
  {
    if |s| == 0 then 0
    else if !IsBlank(s[|s| - 1]) then |s|
    else
      var n := EndOfNonBlank(s[..|s| - 1]);
      assert s[n..] == s[..|s| - 1][n..] + [s[|s| - 1]];
      n
  }

  /** `ltrim`: drops the leading blank run. */
  function LTrim(s: string): (r: string)
    requires HasNonBlank(s)
    ensures 0 < |r| <= |s| && !IsBlank(r[0])
    ensures s == s[..|s| - |r|] + r && AllBlank(s[..|s| - |r|])
  {
    s[FirstNonBlank(s)..]
  }

  /** `rtrim`: drops the trailing blank run; total, because `npos + 1` is 0. */
  function RTrim(s: string): (r: string)
    ensures |r| <= |s| && s == r + s[|r|..] && AllBlank(s[|r|..])
    ensures r == [] || !IsBlank(r[|r| - 1])
  {
    s[..EndOfNonBlank(s)]
  }

  /** `trim`, i.e. `ltrim(rtrim(s))`. The result is the non-blank core of `s`. */
  function Trim(s: string): (r: string)
    requires HasNonBlank(s)
    ensures Trimmed(r)
  {
    var t := RTrim(s);
    assert HasNonBlank(t) by {
      var j :| 0 <= j < |s| && !IsBlank(s[j]);
      assert t[j] == s[j];
    }
    LTrim(t)
  }

  /** `trim` removes exactly a blank prefix and a blank suffix: `s` splits as
      blanks, then the result, then blanks. */
  lemma {:induction false} TrimSplits(s: string) returns (pre: string, post: string)
    requires HasNonBlank(s)
    ensures s == pre + Trim(s) + post
    ensures AllBlank(pre) && AllBlank(post)
  {
    var t := RTrim(s);
    post := s[|t|..];
    pre := t[..|t| - |Trim(s)|];
    assert t == pre + Trim(s);
  }

  /** The first non-blank index is pinned down by the characters around it. */
  lemma {:induction false} FirstNonBlankAt(s: string, i: nat)
    requires i < |s| && !IsBlank(s[i]) && AllBlank(s[..i])
    ensures HasNonBlank(s) && FirstNonBlank(s) == i
  {
    var k := FirstNonBlank(s);
  }

  /** The end of the last non-blank character is pinned down likewise. */
  lemma {:induction false} EndOfNonBlankAt(s: string, n: nat)
    requires 0 < n <= |s| && !IsBlank(s[n - 1]) && AllBlank(s[n..])
    ensures EndOfNonBlank(s) == n
  {
    var k := EndOfNonBlank(s);
  }

  /** `trim` is characterised by the split: whatever blanks surround a trimmed
      core, `trim` returns exactly that core. */
  lemma {:induction false} TrimExact(pre: string, mid: string, post: string)
    requires AllBlank(pre) && AllBlank(post) && Trimmed(mid)
    ensures HasNonBlank(pre + mid + post)
    ensures Trim(pre + mid + post) == mid
  {
    var s := pre + mid + post;
    assert s[|pre|] == mid[0];
    assert s[|pre| + |mid| - 1] == mid[|mid| - 1];
    assert s[|pre| + |mid|..] == post;
    EndOfNonBlankAt(s, |pre| + |mid|);
    var t := RTrim(s);
    assert t == pre + mid;
    assert t[..|pre|] == pre;
    FirstNonBlankAt(t, |pre|);
    assert t[|pre|..] == mid;
  }

  /** On a string that starts non-blank, `trim` only cuts the trailing blanks. */
  lemma {:induction false} TrimKeepsStart(s: string)
    requires 0 < |s| && !IsBlank(s[0])
    ensures HasNonBlank(s)
    ensures |Trim(s)| <= |s| && s == Trim(s) + s[|Trim(s)|..] && AllBlank(s[|Trim(s)|..])
  {
    assert HasNonBlank(s);
    var pre, post := TrimSplits(s);
    assert pre == [];
    assert s == Trim(s) + post;
  }

  /** `trim` is idempotent. */
  lemma {:induction false} TrimIdempotent(s: string)
    requires HasNonBlank(s)
    ensures HasNonBlank(Trim(s)) && Trim(Trim(s)) == Trim(s)
  {
    TrimExact([], Trim(s), []);
    assert [] + Trim(s) + [] == Trim(s);
  }

  /** `find(c)`: the first index of `c`, or `|s|` standing for `npos`. */
  function Find(s: string, c: char): (i: nat)
    ensures i <= |s|
    ensures i < |s| ==> s[i] == c
    ensures c !in s[..i]
  {
    if |s| == 0 then 0
    else if s[0] == c then 0
    else
      var k := Find(s[1..], c);
      assert s[..k + 1] == [s[0]] + s[1..][..k];
      k + 1
  }

  /** `find(c)` is pinned down by the first occurrence of `c`. */
  lemma {:induction false} FindAt(s: string, c: char, i: nat)
    requires i < |s| && s[i] == c && c !in s[..i]
    ensures Find(s, c) == i
  {
    var k := Find(s, c);
  }

  /** `trim` keeps only characters of its argument. */
  lemma {:induction false} TrimKeeps(s: string, c: char)
    requires HasNonBlank(s) && c !in s
    ensures c !in Trim(s)
  {
    var pre, post := TrimSplits(s);
  }

  /** `s.erase(0, s.find(c) + 1)`: everything after the first `c`, and all of
      `s` when there is none (`npos + 1` wraps around to 0). */
  function AfterFirst(s: string, c: char): (r: string)
    ensures c in s ==> |r| < |s| && s[|s| - |r| - 1] == c && c !in s[..|s| - |r| - 1]
    ensures c in s ==> r == s[|s| - |r|..]
    ensures c !in s ==> r == s
  {
    var i := Find(s, c);
    if i < |s| then s[i + 1..]
    else
      assert s[..i] == s;
      s
  }

  /** What follows a known first occurrence of `c`. */
  lemma {:induction false} AfterFirstAt(s: string, c: char, i: nat)
    requires i < |s| && s[i] == c && c !in s[..i]
    ensures AfterFirst(s, c) == s[i + 1..]
  {
    FindAt(s, c, i);
  }
}

=== FILE: tags.dfy ===
/** The tag tree: `struct Tag` with its `add_attr` and `new_child` members,
    the child search the resolver does with `find_if`, and a node count. */
module Tags {
  import opened Wrappers

  /** One `key="value"` pair as read from an opening line. */
  datatype Attr = Attr(key: string, value: string)

  /** A tag: its name, its attribute map and its children in document order.
      The C++ parent pointer is not part of the tree; the builder keeps a
      stack of open tags instead. */
  datatype Tag = Tag(name: string, attrs: map<string, string>, children: seq<Tag>)

  /** The unnamed synthetic root the builder starts from. */
  const Root: Tag := Tag("", map[], [])

  /** `add_attr`: `attrs[key] = value`, overwriting any earlier value. */
  function AddAttr(t: Tag, key: string, value: string): (r: Tag)
    ensures r.name == t.name && r.children == t.children
    ensures key in r.attrs && r.attrs[key] == value
    ensures r.attrs.Keys == t.attrs.Keys + {key}
    ensures forall k :: k in t.attrs && k != key ==> r.attrs[k] == t.attrs[k]
  {
    t.(attrs := t.attrs[key := value])
  }

  /** The map one opening line's pairs amount to on their own: each key
      mentioned, with the value of its LAST pair. */
  function Assigned(pairs: seq<Attr>): map<string, string> {
    if pairs == [] then map[]
    else map[pairs[0].key := pairs[0].value] + Assigned(pairs[1..])
  }

  /** The pairs of one opening line written in order with `add_attr`: the
      old attributes overridden by what the pairs assign. */
  function AddAttrs(t: Tag, pairs: seq<Attr>): (r: Tag)
    decreases |pairs|
    ensures r.name == t.name && r.children == t.children
    ensures r.attrs == t.attrs + Assigned(pairs)
  {
    if pairs == [] then t
    else
      var r := AddAttrs(AddAttr(t, pairs[0].key, pairs[0].value), pairs[1..]);
      UpdateThenMerge(t.attrs, pairs[0].key, pairs[0].value, Assigned(pairs[1..]));
      r
  }

  /** One update followed by an override is one combined override. */
  lemma {:induction false} UpdateThenMerge(a: map<string, string>, k: string, v: string, c: map<string, string>)
    ensures a[k := v] + c == a + (map[k := v] + c)
  {
  }

  /** No later pair has the key of the `i`-th one. */
  predicate LastWithKey(pairs: seq<Attr>, i: nat)
    requires i < |pairs|
  {
    forall j :: i < j < |pairs| ==> pairs[j].key != pairs[i].key
  }

  /** The keys assigned are exactly the keys of the pairs. */
  lemma {:induction false} AssignedKeys(pairs: seq<Attr>, k: string)
    ensures k in Assigned(pairs) <==> exists i :: 0 <= i < |pairs| && pairs[i].key == k
  {
    if pairs != [] {
      AssignedKeys(pairs[1..], k);
      if k in Assigned(pairs[1..]) {
        var i :| 0 <= i < |pairs[1..]| && pairs[1..][i].key == k;
        assert pairs[i + 1].key == k;
      }
      if exists i :: 0 <= i < |pairs| && pairs[i].key == k {
        var i :| 0 <= i < |pairs| && pairs[i].key == k;
        if i > 0 {
          assert pairs[1..][i - 1].key == k;
        }
      }
    }
  }

  /** Last write wins: a key keeps the value of the last pair naming it. */
  lemma {:induction false} LastWriteWins(pairs: seq<Attr>, i: nat)
    requires i < |pairs| && LastWithKey(pairs, i)
    ensures pairs[i].key in Assigned(pairs)
    ensures Assigned(pairs)[pairs[i].key] == pairs[i].value
  {
    var rest := pairs[1..];
    if i == 0 {
      AssignedKeys(rest, pairs[0].key);
    } else {
      assert rest[i - 1] == pairs[i];
      assert LastWithKey(rest, i - 1) by {
        forall j | i - 1 < j < |rest| ensures rest[j].key != rest[i - 1].key {
          assert rest[j] == pairs[j + 1];
        }
      }
      LastWriteWins(rest, i - 1);
    }
  }

  /** `new_child`: one more child at the end, the earlier ones untouched. */
  function AppendChild(t: Tag, c: Tag): (r: Tag)
    ensures r.name == t.name && r.attrs == t.attrs
    ensures |r.children| == |t.children| + 1
    ensures r.children[..|t.children|] == t.children
    ensures r.children[|t.children|] == c
  {
    t.(children := t.children + [c])
  }

  /** The `find_if` over `children` by name: the index of the FIRST child
      with that name, or None when no child has it. */
  function FirstChildIndex(children: seq<Tag>, name: string): (r: Option<nat>)
    ensures r.Some? ==> r.value < |children| && children[r.value].name == name
    ensures r.Some? ==> forall j :: 0 <= j < r.value ==> children[j].name != name
    ensures r.None? <==> forall j :: 0 <= j < |children| ==> children[j].name != name
  {
    if children == [] then None
    else if children[0].name == name then Some(0)
    else
      match FirstChildIndex(children[1..], name)
      case None => None
      case Some(i) => Some(i + 1)
  }

  /** The FIRST child of `t` named `name`, if any. */
  function FirstChild(t: Tag, name: string): (r: Option<Tag>)
    ensures r.Some? ==> r.value.name == name
    ensures r.Some? ==> exists i :: 0 <= i < |t.children| && t.children[i] == r.value
                                   && forall j :: 0 <= j < i ==> t.children[j].name != name
    ensures r.None? <==> forall j :: 0 <= j < |t.children| ==> t.children[j].name != name
  {
    match FirstChildIndex(t.children, name)
    case None => None
    case Some(i) => Some(t.children[i])
  }

  /** Number of nodes in a tree, the tag itself included. */
  function Size(t: Tag): nat
    decreases t, 1
  {
    1 + SizeOf(t.children)
  }

  /** Number of nodes in a forest. */
  function SizeOf(ts: seq<Tag>): nat
    decreases ts, 0
  {
    if ts == [] then 0 else SizeOf(ts[..|ts| - 1]) + Size(ts[|ts| - 1])
  }

  /** Adding a child adds exactly the child's nodes. */
  lemma {:induction false} AppendChildSize(t: Tag, c: Tag)
    ensures Size(AppendChild(t, c)) == Size(t) + Size(c)
  {
    assert (t.children + [c])[..|t.children|] == t.children;
  }
}

=== FILE: tokenizer.dfy ===
/** The handling of one markup line once the regular expressions have spoken:
    stripping `<>`, telling closing from opening lines, cutting the tag name at
    the first space, and reading each `key="value"` pair. The regular
    expressions themselves are an oracle: a `Scanned` value records whether the
    full-line pattern matched and where each successive attribute match ended. */
module Tokenizer {
  import opened Strings
  import opened Tags

  /** What the regular expressions report for one line. `ends[i]` is the offset,
      within the text after the tag name, just past the `i`-th attribute match;
      the `i`-th pair is read from the text starting at the previous end. */
  datatype Scanned = NoMatch | Match(text: string, ends: seq<nat>)

  /** A classified line, the event the tree builder consumes. */
  datatype Line = Invalid | Open(name: string, pairs: seq<Attr>) | Close(name: string)

  /** What a line accepted by the full-line pattern always looks like: `<`, a
      non-blank character, anything, `>`. */
  predicate LineShape(text: string) {
    3 <= |text| && text[0] == '<' && text[|text| - 1] == '>' && !IsBlank(text[1])
  }

  /** The text between `<` and `>`. */
  function Inner(text: string): string
    requires LineShape(text)
  {
    text[1..|text| - 1]
  }

  /** The tag name of an opening line: the trimmed inner text up to its first
      space, or all of it when it has none. */
  function NameOf(inner: string): string
    requires HasNonBlank(inner)
  {
    var t := Trim(inner);
    t[..Find(t, ' ')]
  }

  /** The text after the tag name of an opening line: what is left of the
      trimmed inner text once everything before its first space is erased. */
  function AfterName(inner: string): string
    requires HasNonBlank(inner)
  {
    var t := Trim(inner);
    t[Find(t, ' ')..]
  }

  /** Where the `i`-th pair is read from: the remaining text after the previous
      attribute match. */
  function Source(rest: string, ends: seq<nat>, i: nat): string
    requires i < |ends|
    requires forall j :: 0 <= j < |ends| ==> ends[j] <= |rest|
  {
    if i == 0 then rest else rest[ends[i - 1]..]
  }

  /** Every `trim` in the pair reading finds something to keep (the C++ throws
      `out_of_range` otherwise, e.g. on a value of only blanks). */
  predicate Extractable(seg: string) {
    HasNonBlank(seg) && ExtractableTrimmed(Trim(seg))
  }

  /** The same, for the text once it has been trimmed. */
  predicate ExtractableTrimmed(l2: string) {
    && HasNonBlank(l2[..Find(l2, '=')])
    && HasNonBlank(AfterFirst(l2, '='))
    && var l4 := AfterFirst(Trim(AfterFirst(l2, '=')), '"');
       HasNonBlank(l4[..Find(l4, '"')])
  }

  /** Reads the pair at the head of `seg`: the key is the trimmed text before
      the first `=`, the value the trimmed text between the next two quotes. */
  function ExtractPair(seg: string): (r: Attr)
    requires Extractable(seg)
    ensures Trimmed(r.key) && '=' !in r.key
    ensures Trimmed(r.value) && '"' !in r.value
  {
    PairOf(Trim(seg))
  }

  /** The pair reading on the already trimmed text. */
  function PairOf(l2: string): (r: Attr)
    requires ExtractableTrimmed(l2)
    ensures Trimmed(r.key) && '=' !in r.key
    ensures Trimmed(r.value) && '"' !in r.value
  {
    var key := Trim(l2[..Find(l2, '=')]);
    TrimKeeps(l2[..Find(l2, '=')], '=');
    var l4 := AfterFirst(Trim(AfterFirst(l2, '=')), '"');
    var value := Trim(l4[..Find(l4, '"')]);
    TrimKeeps(l4[..Find(l4, '"')], '"');
    Attr(key, value)
  }

  /** What the regular-expression engine guarantees about a match: the line's
      shape, attribute matches lying within the text after the name, and each
      pair readable without an exception. */
  predicate WellScanned(s: Scanned) {
    s.Match? ==>
      && LineShape(s.text)
      && var inner := Inner(s.text);
         inner[0] != '/' ==>
           && (forall j :: 0 <= j < |s.ends| ==> s.ends[j] <= |AfterName(inner)|)
           && (forall i :: 0 <= i < |s.ends| ==> Extractable(Source(AfterName(inner), s.ends, i)))
  }

  /** `name` is the whole first word of the line: the line starts with `<`
      and `name`, followed by a blank or by the closing `>`. */
  predicate NameLeads(text: string, name: string) {
    && "<" + name <= text
    && |name| + 2 <= |text|
    && (|name| + 2 == |text| || IsBlank(text[|name| + 1]))
  }

  /** Classifies one line. A line the pattern rejects is invalid; a line whose
      inner text starts with `/` closes the tag named by the rest; any other is
      an opening line whose name runs up to the first space. */
  function Classify(s: Scanned): (r: Line)
    requires WellScanned(s)
    ensures r.Invalid? <==> s.NoMatch?
    ensures r.Close? ==> s.text == "</" + r.name + ">"
    ensures r.Open? ==> s.text[1] != '/' && |r.pairs| == |s.ends|
    ensures r.Open? ==> 0 < |r.name| && !IsBlank(r.name[0]) && ' ' !in r.name
    ensures r.Open? ==> NameLeads(s.text, r.name)
  {
    match s
    case NoMatch => Invalid
    case Match(text, ends) =>
      if Inner(text)[0] == '/' then ClosingLine(text) else OpeningLine(text, ends)
  }

  /** A closing line names the tag after its `/`. */
  function ClosingLine(text: string): (r: Line)
    requires LineShape(text) && Inner(text)[0] == '/'
    ensures r.Close? && text == "</" + r.name + ">"
  {
    var inner := Inner(text);
    InnerSplit(text);
    assert inner == "/" + inner[1..];
    Close(inner[1..])
  }

  /** An opening line: its first word and one pair per attribute match. */
  function OpeningLine(text: string, ends: seq<nat>): (r: Line)
    requires WellScanned(Match(text, ends)) && Inner(text)[0] != '/'
    ensures r.Open? && text[1] != '/' && |r.pairs| == |ends|
    ensures r.Open? && 0 < |r.name| && !IsBlank(r.name[0]) && ' ' !in r.name
    ensures r.Open? && NameLeads(text, r.name)
  {
    LeadsNonBlank(text);
    Open(LeadingName(text), ReadPairs(AfterName(Inner(text)), ends))
  }

  /** The inner text of an accepted line has something to keep once trimmed. */
  lemma {:induction false} LeadsNonBlank(text: string)
    requires LineShape(text)
    ensures HasNonBlank(Inner(text))
  {
    assert Inner(text)[0] == text[1];
  }

  /** The tag name of an opening line, the whole first word after `<`. */
  function LeadingName(text: string): (name: string)
    requires LineShape(text) && Inner(text)[0] != '/'
    ensures 0 < |name| && !IsBlank(name[0]) && ' ' !in name
    ensures NameLeads(text, name)
  {
    LeadsNonBlank(text);
    NameInText(text, Trim(Inner(text)));
    NameOf(Inner(text))
  }

  /** The pairs of an opening line, one per attribute match, in line order.
      Every key is trimmed and free of `=`, every value trimmed and free of
      `"`, whatever the line. */
  function ReadPairs(rest: string, ends: seq<nat>): (r: seq<Attr>)
    requires forall j :: 0 <= j < |ends| ==> ends[j] <= |rest|
    requires forall i :: 0 <= i < |ends| ==> Extractable(Source(rest, ends, i))
    ensures |r| == |ends|
    ensures forall i :: 0 <= i < |r| ==> Trimmed(r[i].key) && '=' !in r[i].key
    ensures forall i :: 0 <= i < |r| ==> Trimmed(r[i].value) && '"' !in r[i].value
    ensures forall i :: 0 <= i < |ends| ==> r[i] == ExtractPair(Source(rest, ends, i))
  {
    seq(|ends|, i requires 0 <= i < |ends| => ExtractPair(Source(rest, ends, i)))
  }

  /** The trimmed inner text of an opening line starts right after `<` (its
      first character is not blank), so its first word is a prefix of the line
      followed by a blank or by the closing `>`. */
  lemma {:induction false} NameInText(text: string, t: string)
    requires LineShape(text) && Inner(text)[0] != '/'
    requires HasNonBlank(Inner(text)) && t == Trim(Inner(text))
    ensures NameLeads(text, t[..Find(t, ' ')])
  {
    var inner := Inner(text);
    TrimKeepsStart(inner);
    InnerSplit(text);
    FirstWord(text, inner, t, Find(t, ' '));
  }

  /** A line of the accepted shape is its inner text between `<` and `>`. */
  lemma {:induction false} InnerSplit(text: string)
    requires LineShape(text)
    ensures text == "<" + Inner(text) + ">"
  {
    var w := "<" + Inner(text) + ">";
    assert |w| == |text|;
    forall i | 0 <= i < |text| ensures w[i] == text[i] {
      if 0 < i < |text| - 1 {
        assert w[i] == Inner(text)[i - 1];
      }
    }
  }

  /** In `<` + t + blanks + `>`, a prefix of `t` ending at a blank or at the
      end of `t` is followed by a blank or by the closing `>`. */
  lemma {:induction false} FirstWord(text: string, inner: string, t: string, k: nat)
    requires text == "<" + inner + ">"
    requires |t| <= |inner| && inner == t + inner[|t|..] && AllBlank(inner[|t|..])
    requires k <= |t| && (k < |t| ==> IsBlank(t[k]))
    ensures NameLeads(text, t[..k])
  {
    var post := inner[|t|..];
    assert text == "<" + t + post + ">";
    assert text[..k + 1] == "<" + t[..k];
    if k == |t| && post != [] {
      assert text[k + 1] == post[0];
    }
  }
}

/** Lines as a well-formed document writes them, and the proof that the line
    handling reads them back. */
module Rendering {
  import opened Strings
  import opened Tags
  import opened Tokenizer
  import opened Patterns

  /** A pair a document can carry: a key the pattern's `[\S=]+` takes whole
      and with no `=` (the pair reading cuts the key at the first one), and a
      value with no `"` and no line break, with no blanks at its ends (the
      pair reading trims it). The value must not end in `=`: the attribute
      pattern's greedy key could then run on into the value and its `=`, and
      one match would swallow the next pair. */
  predicate GoodPair(p: Attr) {
    && NonSpaces(p.key) && '=' !in p.key
    && Trimmed(p.value) && '"' !in p.value && '\n' !in p.value
    && p.value[|p.value| - 1] != '='
  }

  /** A tag name an opening line can carry: what the pattern's `\S+` takes,
      not starting with `/` (that would make it a closing line). */
  predicate GoodName(name: string) {
    NonSpaces(name) && name[0] != '/'
  }

  /** ` key="value"` */
  function RenderPair(p: Attr): string {
    " " + p.key + "=\"" + p.value + "\""
  }

  function RenderPairs(ps: seq<Attr>): string {
    if ps == [] then "" else RenderPair(ps[0]) + RenderPairs(ps[1..])
  }

  /** `<name key="value" ...>` */
  function RenderOpen(name: string, ps: seq<Attr>): string {
    "<" + name + RenderPairs(ps) + ">"
  }

  /** `</name>` */
  function RenderClose(name: string): string {
    "</" + name + ">"
  }

  /** Where each attribute match of a rendered opening line ends, as offsets
      into the text after the name. The attribute pattern ends in `( )*`, so
      a match takes the space before the next pair as well; the last one
      ends with the text. */
  function PairEnds(ps: seq<Attr>): (r: seq<nat>)
    ensures |r| == |ps|
  {
    seq(|ps|, i requires 0 <= i < |ps| => |RenderPairs(ps[..i + 1])| + (if i + 1 < |ps| then 1 else 0))
  }

  /** A trimmed core is its own `trim`. */
  lemma {:induction false} TrimOfTrimmed(s: string)
    requires Trimmed(s)
    ensures HasNonBlank(s) && Trim(s) == s
  {
    TrimExact([], s, []);
    assert [] + s + [] == s;
  }

  /** The pair reading on a pair written with blanks wherever the attribute
      pattern allows them and `trim` removes them, as in `key = " value "`:
      the key is the text before the first `=` less its blanks, and the value
      the text between the next two quotes less its blanks, whatever text
      follows (as long as it does not end in a blank, which the line's `trim`
      would already have cut). */
  lemma {:induction false} SpacedPairReads(seg: string, pre: string, k: string, s1: string, s2: string, b1: string, v: string, b2: string, rest: string)
    requires seg == pre + k + s1 + "=" + s2 + "\"" + b1 + v + b2 + "\"" + rest
    requires AllBlank(pre) && AllBlank(s1) && AllBlank(s2) && AllBlank(b1) && AllBlank(b2)
    requires Trimmed(k) && '=' !in k && Trimmed(v) && '"' !in v
    requires rest == [] || !IsBlank(rest[|rest| - 1])
    ensures Extractable(seg) && ExtractPair(seg) == Attr(k, v)
  {
    var q := "\"" + b1 + v + b2 + "\"" + rest;
    var a := s2 + q;
    var mid := k + s1 + "=" + a;
    SpacedText(pre, k, s1, s2, b1, v, b2, rest, q, a, mid);
    TrimExact(pre, mid, []);
    SpacedKey(mid, k, s1, a);
    TrimExact(s2, q, []);
    SpacedValue(q, b1, v, b2, rest);
  }

  /** The pieces of a spaced pair: the text from the key on is trimmed, and
      so is the text from the opening quote on. */
  lemma {:induction false} SpacedText(pre: string, k: string, s1: string, s2: string, b1: string, v: string, b2: string, rest: string,
                                      q: string, a: string, mid: string)
    requires Trimmed(k) && (rest == [] || !IsBlank(rest[|rest| - 1]))
    requires q == "\"" + b1 + v + b2 + "\"" + rest && a == s2 + q && mid == k + s1 + "=" + a
    ensures pre + k + s1 + "=" + s2 + "\"" + b1 + v + b2 + "\"" + rest == pre + mid + []
    ensures a == s2 + q + []
    ensures Trimmed(mid) && Trimmed(q)
  {
    assert mid[0] == k[0];
    assert q[0] == '"';
    assert mid[|mid| - 1] == q[|q| - 1];
  }

  /** Reading the key of a spaced pair: the first `=` follows the key and its
      blanks, and the text after it is what remains. */
  lemma {:induction false} SpacedKey(mid: string, k: string, s1: string, a: string)
    requires mid == k + s1 + "=" + a && Trimmed(k) && '=' !in k && AllBlank(s1)
    ensures HasNonBlank(mid[..Find(mid, '=')]) && Trim(mid[..Find(mid, '=')]) == k
    ensures AfterFirst(mid, '=') == a
  {
    var i := |k| + |s1|;
    assert mid[..i] == k + s1;
    assert '=' !in s1 by {
      forall j | 0 <= j < |s1| ensures s1[j] != '=' {
        assert IsBlank(s1[j]);
      }
    }
    FindAt(mid, '=', i);
    TrimExact([], k, s1);
    assert [] + k + s1 == k + s1;
    assert mid[i + 1..] == a;
  }

  /** Reading the value of a spaced pair: the text between the first two
      quotes, less its blanks. */
  lemma {:induction false} SpacedValue(q: string, b1: string, v: string, b2: string, rest: string)
    requires q == "\"" + b1 + v + b2 + "\"" + rest
    requires AllBlank(b1) && AllBlank(b2) && Trimmed(v) && '"' !in v
    ensures var l4 := AfterFirst(q, '"'); HasNonBlank(l4[..Find(l4, '"')]) && Trim(l4[..Find(l4, '"')]) == v
  {
    var l4 := b1 + v + b2 + "\"" + rest;
    assert q[..0] == [];
    AfterFirstAt(q, '"', 0);
    assert q[1..] == l4;
    var i := |b1| + |v| + |b2|;
    assert l4[..i] == b1 + v + b2;
    NoQuoteAround(b1, v, b2);
    FindAt(l4, '"', i);
    TrimExact(b1, v, b2);
  }

  /** Blanks around a quote-free value add no quote. */
  lemma {:induction false} NoQuoteAround(b1: string, v: string, b2: string)
    requires AllBlank(b1) && AllBlank(b2) && '"' !in v
    ensures '"' !in b1 + v + b2
  {
    forall j | 0 <= j < |b1 + v + b2| ensures (b1 + v + b2)[j] != '"' {
      if j < |b1| { assert IsBlank(b1[j]); }
      else if j < |b1| + |v| { assert (b1 + v + b2)[j] == v[j - |b1|]; }
      else { assert IsBlank(b2[j - |b1| - |v|]); }
    }
  }

  /** The pair reading recovers a pair written as `key="value"` after any
      blanks, when the text that follows it is empty or ends in a non-blank
      character (the line's `trim` would cut a blank end). */
  lemma {:induction false} PairRoundTrip(pre: string, p: Attr, rest: string)
    requires AllBlank(pre) && GoodPair(p)
    requires rest == [] || !IsBlank(rest[|rest| - 1])
    ensures Extractable(pre + p.key + "=\"" + p.value + "\"" + rest)
    ensures ExtractPair(pre + p.key + "=\"" + p.value + "\"" + rest) == p
  {
    assert !IsSpace(p.key[0]) && !IsSpace(p.key[|p.key| - 1]);
    Unspaced(pre, p.key, p.value, rest);
    SpacedPairReads(pre + p.key + "=\"" + p.value + "\"" + rest, pre, p.key, "", "", "", p.value, "", rest);
  }

  /** `key="value"` is the spaced form with every blank run empty. */
  lemma {:induction false} Unspaced(pre: string, k: string, v: string, rest: string)
    ensures pre + k + "" + "=" + "" + "\"" + "" + v + "" + "\"" + rest == pre + k + "=\"" + v + "\"" + rest
  {
  }

  /** An opening line with one pair written with blanks around its `=` and
      inside its quotes, as in `<tag1 value = "HelloWorld">`, with the
      attribute match taking the text after the name: it opens the tag with
      the trimmed key and value. */
  lemma {:induction false} SpacedOpenReads(name: string, k: string, s1: string, s2: string, b1: string, v: string, b2: string)
    requires GoodName(name)
    requires AllBlank(s1) && AllBlank(s2) && AllBlank(b1) && AllBlank(b2)
    requires Trimmed(k) && '=' !in k && Trimmed(v) && '"' !in v
    ensures var rest := " " + k + s1 + "=" + s2 + "\"" + b1 + v + b2 + "\"";
      && (NonSpaces(k) && SpaceRun(s1) && SpaceRun(s2) ==> Accepted("<" + name + rest + ">"))
      && WellScanned(Match("<" + name + rest + ">", [|rest|]))
      && Classify(Match("<" + name + rest + ">", [|rest|])) == Open(name, [Attr(k, v)])
  {
    var rest := " " + k + s1 + "=" + s2 + "\"" + b1 + v + b2 + "\"";
    var text := "<" + name + rest + ">";
    if NonSpaces(k) && SpaceRun(s1) && SpaceRun(s2) {
      SpacedAccepted(name, rest, k, s1, s2, b1, v, b2);
    }
    var ends: seq<nat> := [|rest|];
    SpacedSource(rest, ends, k, s1, s2, b1, v, b2);
    SpacedName(text, name, rest);
    MatchesRead(text, name, rest, [Attr(k, v)], ends);
  }

  /** Such a line is in the full-line pattern's language when the key has
      no space character and only spaces surround the `=`. */
  lemma {:induction false} SpacedAccepted(name: string, rest: string, k: string, s1: string, s2: string, b1: string, v: string, b2: string)
    requires GoodName(name) && NonSpaces(k) && SpaceRun(s1) && SpaceRun(s2)
    requires AllBlank(b1) && AllBlank(b2) && Trimmed(v) && '"' !in v
    requires rest == " " + k + s1 + "=" + s2 + "\"" + b1 + v + b2 + "\""
    ensures Accepted("<" + name + rest + ">")
  {
    SpacedAttrs(rest, k, s1, s2, b1, v, b2);
    OpeningAccepted(name, rest);
  }

  /** The pair of such a line is the pattern's one attribute. */
  lemma {:induction false} SpacedAttrs(rest: string, k: string, s1: string, s2: string, b1: string, v: string, b2: string)
    requires NonSpaces(k) && SpaceRun(s1) && SpaceRun(s2)
    requires AllBlank(b1) && AllBlank(b2) && Trimmed(v) && '"' !in v
    requires rest == " " + k + s1 + "=" + s2 + "\"" + b1 + v + b2 + "\""
    ensures AttrsThenSpaces(rest)
  {
    var quoted := "\"" + b1 + v + b2 + "\"";
    QuotedAround(quoted, b1, v, b2);
    SpacedAttrAccepted(k, s1, s2, quoted);
    Regroup5(" " + k + s1 + "=" + s2, "\"", b1, v, b2, "\"");
    OneAttr(rest);
  }

  /** Regrouping the quoted tail of a concatenation. */
  lemma {:induction false} Regroup5(x: string, a: string, b: string, c: string, d: string, e: string)
    ensures x + a + b + c + d + e == x + (a + b + c + d + e)
  {
  }

  /** A quote-free value and the blanks around it, in quotes, are the
      pattern's quoted value. */
  lemma {:induction false} QuotedAround(quoted: string, b1: string, v: string, b2: string)
    requires AllBlank(b1) && AllBlank(b2) && Trimmed(v) && '"' !in v
    requires quoted == "\"" + b1 + v + b2 + "\""
    ensures QuotedValue(quoted)
  {
    assert quoted[1..|quoted| - 1] == b1 + v + b2;
    NoQuoteAround(b1, v, b2);
  }

  /** One attribute alone is accepted attributes. */
  lemma {:induction false} OneAttr(x: string)
    requires AttrText(x)
    ensures AttrsThenSpaces(x)
  {
    assert SpaceRun("");
    AttrsPrepend(x, "");
    assert x + "" == x;
  }

  /** The one attribute match of such a line reads its pair. */
  lemma {:induction false} SpacedSource(rest: string, ends: seq<nat>, k: string, s1: string, s2: string, b1: string, v: string, b2: string)
    requires AllBlank(s1) && AllBlank(s2) && AllBlank(b1) && AllBlank(b2)
    requires Trimmed(k) && '=' !in k && Trimmed(v) && '"' !in v
    requires rest == " " + k + s1 + "=" + s2 + "\"" + b1 + v + b2 + "\""
    requires |ends| == 1 && ends[0] <= |rest|
    ensures 0 < |rest| && rest[0] == ' ' && rest[|rest| - 1] == '"'
    ensures forall j :: 0 <= j < |ends| ==> ends[j] <= |rest|
    ensures forall i :: 0 <= i < |ends| ==> Extractable(Source(rest, ends, i)) && ExtractPair(Source(rest, ends, i)) == [Attr(k, v)][i]
  {
    SourceOne(rest, ends);
    forall i | 0 <= i < |ends|
      ensures Extractable(Source(rest, ends, i)) && ExtractPair(Source(rest, ends, i)) == [Attr(k, v)][i]
    {
      assert Source(rest, ends, i) == " " + k + s1 + "=" + s2 + "\"" + b1 + v + b2 + "\"" + "";
      SpacedPairReads(Source(rest, ends, i), " ", k, s1, s2, b1, v, b2, "");
    }
  }

  /** With one attribute match, the one pair is read from all the text. */
  lemma {:induction false} SourceOne(rest: string, ends: seq<nat>)
    requires |ends| == 1 && ends[0] <= |rest|
    ensures forall j :: 0 <= j < |ends| ==> ends[j] <= |rest|
    ensures forall i :: 0 <= i < |ends| ==> Source(rest, ends, i) == rest
  {
  }

  /** A line whose attribute matches read the pairs `ps` opens its first
      word with those pairs. */
  lemma {:induction false} MatchesRead(text: string, name: string, rest: string, ps: seq<Attr>, ends: seq<nat>)
    requires LineShape(text) && Inner(text)[0] != '/'
    requires HasNonBlank(Inner(text)) && NameOf(Inner(text)) == name && AfterName(Inner(text)) == rest
    requires |ends| == |ps| && forall j :: 0 <= j < |ends| ==> ends[j] <= |rest|
    requires forall i :: 0 <= i < |ends| ==> Extractable(Source(rest, ends, i)) && ExtractPair(Source(rest, ends, i)) == ps[i]
    ensures WellScanned(Match(text, ends))
    ensures Classify(Match(text, ends)) == Open(name, ps)
  {
    MatchesScan(text, rest, ends);
    ReadsEach(rest, ends, ps);
    assert LeadingName(text) == name;
  }

  /** The regular expressions may report such a line. */
  lemma {:induction false} MatchesScan(text: string, rest: string, ends: seq<nat>)
    requires LineShape(text) && Inner(text)[0] != '/'
    requires HasNonBlank(Inner(text)) && AfterName(Inner(text)) == rest
    requires forall j :: 0 <= j < |ends| ==> ends[j] <= |rest|
    requires forall i :: 0 <= i < |ends| ==> Extractable(Source(rest, ends, i))
    ensures WellScanned(Match(text, ends))
  {
  }

  /** The name of such a line, and the text after it. */
  lemma {:induction false} SpacedName(text: string, name: string, rest: string)
    requires GoodName(name) && 0 < |rest| && rest[0] == ' ' && rest[|rest| - 1] == '"'
    requires text == "<" + name + rest + ">"
    ensures LineShape(text) && Inner(text)[0] != '/'
    ensures HasNonBlank(Inner(text)) && NameOf(Inner(text)) == name
    ensures AfterName(Inner(text)) == rest
  {
    assert text[1..|text| - 1] == name + rest;
    assert !IsSpace(name[0]);
    NameSplit(name, rest);
  }

  /** A good name holds no space. */
  lemma {:induction false} NoSpaceInName(name: string)
    requires GoodName(name)
    ensures ' ' !in name
  {
    forall j | 0 <= j < |name| ensures name[j] != ' ' {
      assert !IsSpace(name[j]);
    }
  }

  /** A name, then text starting with a space and ending in a quote: the
      line handling cuts the name off at that space. */
  lemma {:induction false} NameSplit(name: string, rest: string)
    requires GoodName(name) && 0 < |rest| && rest[0] == ' ' && rest[|rest| - 1] == '"'
    ensures HasNonBlank(name + rest) && NameOf(name + rest) == name
    ensures AfterName(name + rest) == rest
  {
    var inner := name + rest;
    assert inner[0] == name[0] && inner[|inner| - 1] == '"';
    assert !IsSpace(name[0]);
    TrimOfTrimmed(inner);
    assert inner[..|name|] == name && inner[|name|] == ' ';
    NoSpaceInName(name);
    FindAt(inner, ' ', |name|);
    assert inner[|name|..] == rest;
  }

  /** Rendered pairs concatenate. */
  lemma {:induction false} RenderPairsSplit(ps: seq<Attr>, i: nat)
    requires i <= |ps|
    ensures RenderPairs(ps) == RenderPairs(ps[..i]) + RenderPairs(ps[i..])
    decreases i
  {
    if i == 0 {
      assert ps[..0] == [] && ps[0..] == ps;
    } else {
      RenderPairsSplit(ps[1..], i - 1);
      assert ps[1..][..i - 1] == ps[1..i];
      assert ps[1..][i - 1..] == ps[i..];
      assert ps[..i][0] == ps[0] && ps[..i][1..] == ps[1..i];
    }
  }

  /** Rendered pairs start with a space and end with a quote. */
  lemma {:induction false} RenderPairsEnds(ps: seq<Attr>)
    requires ps != []
    ensures 0 < |RenderPairs(ps)| && RenderPairs(ps)[0] == ' '
    ensures RenderPairs(ps)[|RenderPairs(ps)| - 1] == '"'
  {
    RenderPairsSplit(ps, |ps| - 1);
    var last := ps[|ps| - 1..];
    assert last[1..] == [];
    assert RenderPairs(last) == RenderPair(ps[|ps| - 1]);
  }

  /** Each attribute match of a rendered line ends within the text after the
      name. */
  lemma {:induction false} PairEndsInRange(ps: seq<Attr>)
    ensures forall j :: 0 <= j < |ps| ==> PairEnds(ps)[j] <= |RenderPairs(ps)|
  {
    forall j | 0 <= j < |ps|
      ensures PairEnds(ps)[j] <= |RenderPairs(ps)|
    {
      RenderPairsSplit(ps, j + 1);
      if j + 1 < |ps| {
        RenderPairsEnds(ps[j + 1..]);
      }
    }
  }

  /** The `i`-th pair of a rendered line is read from the rendering of the
      pairs from the `i`-th on (less the space the previous match took), and
      is read back unchanged. */
  lemma {:induction false} RenderedPairSource(ps: seq<Attr>, i: nat)
    requires i < |ps| && forall j :: 0 <= j < |ps| ==> GoodPair(ps[j])
    requires forall j :: 0 <= j < |ps| ==> PairEnds(ps)[j] <= |RenderPairs(ps)|
    ensures var skip := if i == 0 then 0 else 1;
      && 0 < |RenderPairs(ps[i..])|
      && Source(RenderPairs(ps), PairEnds(ps), i) == RenderPairs(ps[i..])[skip..]
      && Extractable(RenderPairs(ps[i..])[skip..]) && ExtractPair(RenderPairs(ps[i..])[skip..]) == ps[i]
  {
    RenderPairsEnds(ps[i..]);
    if i == 0 {
      assert ps[0..] == ps;
      assert RenderPairs(ps)[0..] == RenderPairs(ps);
      HeadReads(ps, 0);
    } else {
      LaterSource(ps, i);
      HeadReads(ps[i..], 1);
    }
  }

  /** A later pair is read from the text after the previous pairs and the
      space the previous match took. */
  lemma {:induction false} LaterSource(ps: seq<Attr>, i: nat)
    requires 0 < i < |ps|
    requires forall j :: 0 <= j < |ps| ==> PairEnds(ps)[j] <= |RenderPairs(ps)|
    ensures 0 < |RenderPairs(ps[i..])|
    ensures Source(RenderPairs(ps), PairEnds(ps), i) == RenderPairs(ps[i..])[1..]
  {
    var a, b := RenderPairs(ps[..i]), RenderPairs(ps[i..]);
    RenderPairsEnds(ps[i..]);
    assert PairEnds(ps)[i - 1] == |a| + 1;
    RenderPairsSplit(ps, i);
    assert (a + b)[|a| + 1..] == b[1..];
  }

  /** Dropping the first part of a concatenation leaves the second. */
  lemma {:induction false} DropPrefix(a: string, b: string)
    ensures (a + b)[|a|..] == b
  {
  }

  /** The first of some rendered pairs is read back from their rendering,
      with or without its leading space. */
  lemma {:induction false} HeadReads(qs: seq<Attr>, skip: nat)
    requires qs != [] && GoodPair(qs[0]) && skip <= 1
    ensures skip <= |RenderPairs(qs)|
    ensures Extractable(RenderPairs(qs)[skip..]) && ExtractPair(RenderPairs(qs)[skip..]) == qs[0]
  {
    var p := qs[0];
    var rest := RenderPairs(qs[1..]);
    var pre: string := if skip == 0 then " " else "";
    HeadText(qs, skip, pre);
    if qs[1..] != [] { RenderPairsEnds(qs[1..]); }
    PairRoundTrip(pre, p, rest);
  }

  /** The rendering of some pairs, with or without its leading space: the
      first pair's text, then the others'. */
  lemma {:induction false} HeadText(qs: seq<Attr>, skip: nat, pre: string)
    requires qs != [] && skip <= 1 && pre == if skip == 0 then " " else ""
    ensures skip <= |RenderPairs(qs)|
    ensures RenderPairs(qs)[skip..] == pre + qs[0].key + "=\"" + qs[0].value + "\"" + RenderPairs(qs[1..])
  {
    var p := qs[0];
    var tail := p.key + "=\"" + p.value + "\"" + RenderPairs(qs[1..]);
    assert RenderPairs(qs) == " " + tail;
    DropPrefix(" ", tail);
  }

  /** A rendered opening line has the shape the pattern accepts. */
  lemma {:induction false} RenderedShape(name: string, ps: seq<Attr>)
    requires GoodName(name)
    ensures LineShape(RenderOpen(name, ps))
    ensures Inner(RenderOpen(name, ps)) == name + RenderPairs(ps)
  {
  }

  /** The inner text of a rendered opening line is already trimmed. */
  lemma {:induction false} RenderedTrimmed(name: string, ps: seq<Attr>)
    requires GoodName(name)
    ensures Trimmed(name + RenderPairs(ps))
  {
    var inner := name + RenderPairs(ps);
    assert inner[0] == name[0];
    if ps != [] {
      RenderPairsEnds(ps);
      assert inner[|inner| - 1] == '"';
    } else {
      assert inner == name;
    }
  }

  /** The first space of that inner text is right after the name. */
  lemma {:induction false} RenderedFind(name: string, ps: seq<Attr>)
    requires GoodName(name)
    ensures Find(name + RenderPairs(ps), ' ') == |name|
  {
    var inner := name + RenderPairs(ps);
    if ps != [] {
      RenderPairsEnds(ps);
      assert inner[|name|] == ' ';
      assert inner[..|name|] == name;
      FindAt(inner, ' ', |name|);
    } else {
      assert inner == name;
    }
  }

  /** The name and the text after it, as the line handling splits them. */
  lemma {:induction false} RenderedName(name: string, ps: seq<Attr>)
    requires GoodName(name)
    ensures HasNonBlank(name + RenderPairs(ps))
    ensures Trim(name + RenderPairs(ps)) == name + RenderPairs(ps)
    ensures NameOf(name + RenderPairs(ps)) == name
    ensures AfterName(name + RenderPairs(ps)) == RenderPairs(ps)
  {
    var inner := name + RenderPairs(ps);
    RenderedTrimmed(name, ps);
    TrimOfTrimmed(inner);
    RenderedFind(name, ps);
    assert inner[..|name|] == name;
    DropPrefix(name, RenderPairs(ps));
  }

  /** A rendered opening line is accepted by the full-line pattern, and the
      line handling reads it back: same name, same pairs in the same order. */
  lemma {:induction false} OpenRoundTrip(name: string, ps: seq<Attr>)
    requires GoodName(name) && forall j :: 0 <= j < |ps| ==> GoodPair(ps[j])
    ensures Accepted(RenderOpen(name, ps))
    ensures WellScanned(Match(RenderOpen(name, ps), PairEnds(ps)))
    ensures Classify(Match(RenderOpen(name, ps), PairEnds(ps))) == Open(name, ps)
  {
    var text := RenderOpen(name, ps);
    OpenAccepted(name, ps);
    RenderedScans(name, ps);
    assert LeadingName(text) == name;
    assert OpeningLine(text, PairEnds(ps)) == Open(name, ps);
  }

  /** A rendered opening line is one the regular expressions accept, with the
      pairs its attribute matches read being the rendered ones. */
  lemma {:induction false} RenderedScans(name: string, ps: seq<Attr>)
    requires GoodName(name) && forall j :: 0 <= j < |ps| ==> GoodPair(ps[j])
    ensures WellScanned(Match(RenderOpen(name, ps), PairEnds(ps)))
    ensures Inner(RenderOpen(name, ps))[0] != '/'
    ensures HasNonBlank(Inner(RenderOpen(name, ps)))
    ensures NameOf(Inner(RenderOpen(name, ps))) == name
    ensures ReadPairs(AfterName(Inner(RenderOpen(name, ps))), PairEnds(ps)) == ps
  {
    RenderedShape(name, ps);
    RenderedName(name, ps);
    RenderedPairs(ps);
  }

  /** The pairs of a rendered opening line are read back in order. */
  lemma {:induction false} RenderedPairs(ps: seq<Attr>)
    requires forall j :: 0 <= j < |ps| ==> GoodPair(ps[j])
    ensures forall j :: 0 <= j < |ps| ==> PairEnds(ps)[j] <= |RenderPairs(ps)|
    ensures forall i :: 0 <= i < |ps| ==> Extractable(Source(RenderPairs(ps), PairEnds(ps), i))
    ensures ReadPairs(RenderPairs(ps), PairEnds(ps)) == ps
  {
    EachPairReads(ps);
    ReadsEach(RenderPairs(ps), PairEnds(ps), ps);
  }

  /** Each attribute match of a rendered line reads back its own pair. */
  lemma {:induction false} EachPairReads(ps: seq<Attr>)
    requires forall j :: 0 <= j < |ps| ==> GoodPair(ps[j])
    ensures forall j :: 0 <= j < |ps| ==> PairEnds(ps)[j] <= |RenderPairs(ps)|
    ensures forall i :: 0 <= i < |ps| ==>
      Extractable(Source(RenderPairs(ps), PairEnds(ps), i)) && ExtractPair(Source(RenderPairs(ps), PairEnds(ps), i)) == ps[i]
  {
    PairEndsInRange(ps);
    forall i | 0 <= i < |ps|
      ensures Extractable(Source(RenderPairs(ps), PairEnds(ps), i))
      ensures ExtractPair(Source(RenderPairs(ps), PairEnds(ps), i)) == ps[i]
    {
      RenderedPairSource(ps, i);
    }
  }

  /** Pair reading that yields each pair in turn yields the whole sequence. */
  lemma {:induction false} ReadsEach(rest: string, ends: seq<nat>, ps: seq<Attr>)
    requires |ends| == |ps|
    requires forall j :: 0 <= j < |ends| ==> ends[j] <= |rest|
    requires forall i :: 0 <= i < |ends| ==> Extractable(Source(rest, ends, i)) && ExtractPair(Source(rest, ends, i)) == ps[i]
    ensures ReadPairs(rest, ends) == ps
  {
    var got := ReadPairs(rest, ends);
    assert forall i :: 0 <= i < |ps| ==> got[i] == ps[i];
  }

  /** The full-line pattern accepts a rendered opening line. */
  lemma {:induction false} OpenAccepted(name: string, ps: seq<Attr>)
    requires GoodName(name) && forall j :: 0 <= j < |ps| ==> GoodPair(ps[j])
    ensures Accepted(RenderOpen(name, ps))
  {
    PairsAccepted(ps);
    OpeningAccepted(name, RenderPairs(ps));
  }

  /** Rendered pairs are attributes the full-line pattern accepts. */
  lemma {:induction false} PairsAccepted(ps: seq<Attr>)
    requires forall j :: 0 <= j < |ps| ==> GoodPair(ps[j])
    ensures AttrsThenSpaces(RenderPairs(ps))
    decreases |ps|
  {
    if ps == [] {
      assert SpaceRun(RenderPairs(ps));
    } else {
      var p := ps[0];
      AttrAccepted(p.key, p.value);
      assert RenderPair(p) == " " + p.key + "=\"" + p.value + "\"";
      PairsAccepted(ps[1..]);
      AttrsPrepend(RenderPair(p), RenderPairs(ps[1..]));
    }
  }

  /** The line handling reads a rendered closing line back, and the
      full-line pattern accepts it when the name has no space. */
  lemma {:induction false} CloseRoundTrip(name: string)
    ensures NonSpaces(name) ==> Accepted(RenderClose(name))
    ensures WellScanned(Match(RenderClose(name), []))
    ensures Classify(Match(RenderClose(name), [])) == Close(name)
  {
    if NonSpaces(name) {
      ClosingAccepted(name);
    }
    var text := RenderClose(name);
    assert Inner(text) == "/" + name;
    assert Inner(text)[1..] == name;
  }
}

=== FILE: wrappers.dfy ===
/** Failure-carrying result types shared by the tree builder and the query resolver. */
module Wrappers {

  /** An optional value; `std::optional<string>` in the resolver. */
  datatype Option<+T> = None | Some(value: T)

  /** Either a value or an error; stands in for the builder's `err_and_exit`. */
  datatype Result<+R, +E> = Success(value: R) | Failure(error: E)
}
